=== FILE: README.md ===
# tts_uk flow utilities: a Dafny model

This project models the deterministic core of `tts_uk/common.py`: the
tensor plumbing and the invertible coupling layers of the text-to-speech
flow model, plus the configuration override helper. In detail:

- `get_mask_from_lengths`: the padding mask of a batch of lengths.
- `ConvLSTMLinear.run_unsorted_inputs`: sorting a batch by descending length,
  running a function, and mapping the results back with the inverse
  permutation.
- `LengthRegulator`: `expand` repeats each frame by its rounded duration,
  `pad` zero-pads a batch to its longest item, and `forward` composes the two.
- `AffineTransformationLayer`: the constructor's validation,
  `get_scaling_and_logs` for a single scaling function, and the
  forward/inverse affine coupling.
- `SplineTransformationLayerAR.normalize`/`denormalize`, and the
  split/rescale/spline/rescale/concat structure of
  `SplineTransformationLayer.forward` in both directions.
- `update_params`: dotted `key=value` overrides of a nested configuration.

Tensors are sequences (`batch × channels × time` as `seq<seq<seq<real>>>`)
and reals are exact. The exponential, logarithm, tanh and sigmoid are
fields of a `RealMath.Math` record. `RealMath.Sound` states the handful of
facts the proofs rely on: exp(0) = 1, exp > 0, exp(log x) = x for x > 0,
tanh in (−1, 1) and sigmoid in (0, 1). The learned parameter predictors
and the piecewise spline functions are function-valued parameters. Where
torch would raise on a shape mismatch, the model returns an explicit
error value.

Modules: `Wrappers` (Option/Result), `Tensors` (channel slicing,
concatenation, element-wise maps), `Masks`, `Unsort`, `LengthRegulator`,
`RealMath`, `Affine`, `Spline`, `Strings` (Python's `split`/`join`/`in`
on strings) and `Config`.

`update_params` skips an override only at its final key. It is reported and
left alone when the parent is a dictionary without that key, or a string
that does not contain the key as a substring (`k in config` is a substring
test on a string). A missing intermediate key raises a lookup error.
Descending into a string or integer node raises a type error. So does the
`in` test on an integer, and assigning into a string that contains the key. Any
error stops the remaining overrides (`Config.SetLeaf`,
`Config.SetPathOutcome`, `Config.UpdateParams`).

## Model

| member | source | states |
|---|---|---|
| Masks.GetMaskFromLengths | tts_uk/common.py:68-83 | fails exactly on an empty batch (torch.max of nothing); otherwise one row per length, every row as wide as the largest length, and entry (i, j) is true iff j < lengths[i] |
| Masks.MaskRowsArePrefixes | tts_uk/common.py:77-81 | each mask row holds exactly max(0, lengths[i]) true entries, and they form a prefix: a true entry is never preceded by a false one |
| Unsort.SortDescending | tts_uk/common.py:275 | the sort indices are a permutation of the batch positions that lists the lengths in non-increasing order |
| Unsort.InsertDescending | tts_uk/common.py:275 | inserting a position into a descending index list keeps it descending and adds exactly that position |
| Unsort.UnsortIds | tts_uk/common.py:276-278 | the loop builds the inverse permutation: unsort[ids[i]] = i and ids[unsort[j]] = j for every position, and the result is itself a permutation |
| Unsort.GatherUnsortRestores | tts_uk/common.py:281-289 | indexing the batch by the sort ids and then by the unsort ids gives back the original batch |
| Unsort.RunUnsortedInputs | tts_uk/common.py:274-290 | after sort, per-item processing and unsort, output j is the function applied to input j with its own length, so the result is in the caller's order |
| LengthRegulator.RoundedDuration | tts_uk/common.py:191 | int(d + 0.5) with truncation toward zero: the nearest integer for d ≥ −0.5, zero on (−1.5, −0.5), and negative exactly when d ≤ −1.5 |
| LengthRegulator.ExpandBlocks | tts_uk/common.py:189-193 | succeeds iff every frame has a duration and no rounded duration is negative; block i is frame i repeated its rounded duration times |
| LengthRegulator.Expand | tts_uk/common.py:188-195 | succeeds iff the item is non-empty, every frame has a duration and none rounds negative; an empty item fails like torch.cat of an empty list |
| LengthRegulator.ExpandRepeatsFrames | tts_uk/common.py:188-195 | the expansion has the sum of the rounded durations as its length, and frame i sits at every offset from the sum of the earlier durations up to that sum plus its own |
| LengthRegulator.Pad | tts_uk/common.py:197-204 | fails exactly on an empty batch (max of an empty list); otherwise every item is as long as the longest, starts with the original frames, ends in all-zero frames, and every frame keeps the channel count |
| LengthRegulator.ExpandAll | tts_uk/common.py:180-184 | succeeds iff every item of the batch expands, and item b is the expansion of item b |
| LengthRegulator.Forward | tts_uk/common.py:180-186 | `zip` stops at the shorter batch; the forward pass succeeds iff at least one pair is zipped and every zipped item is non-empty, has a duration per frame and has no duration that rounds negative; output frames keep the input channel count |
| LengthRegulator.ExpandKeepsWidth | tts_uk/common.py:189-194 | expansion only copies frames, so every expanded frame has the channel count of the input frames |
| LengthRegulator.ForwardPadsExpansions | tts_uk/common.py:180-186 | the forward output pads the expansion of each zipped item to the longest expansion: its prefix is that expansion and the rest is zero frames |
| Affine.NewLayer | tts_uk/common.py:865-877 | an unknown affine model is refused first, then an unsupported scaling name or list; construction succeeds iff both are valid, and the layer keeps the names it was given |
| Affine.ParseScalingList | tts_uk/common.py:867-871 | a list of scaling names is accepted iff every name is translate, exp, tanh or sigmoid, and the parsed list names them back in order |
| Affine.ScaleAndLog | tts_uk/common.py:899-911 | s > 0 and exp(log_s) = s for every scaling function; translate gives (1, 0), exp gives log_s = the unconstrained value, tanh gives s in (1e-6, 2 + 1e-6), sigmoid gives s in (1e-6, 1 + 1e-6) |
| Affine.Couple | tts_uk/common.py:934-947 | succeeds iff z has n_mel/2 channels to split, the context matches its batch and time lengths (both predictor models concatenate z_0 and the context along the channel axis: line 942 for simple_conv, line 629 inside the WaveNet predictor), and both halves of the predictor's output (on z_0 and the context, or their concatenation for simple_conv) have z_1's shape; z_0 and z_1 are the two channel halves of z, and the scale logits and shift are the first and second halves of the predictor's output |
| Affine.StepBackUndoesStep | tts_uk/common.py:949-955 | element by element, (s·z_1 + b − b)/s = z_1 because s > 0 |
| Affine.StepUndoesStepBack | tts_uk/common.py:949-955 | element by element, s·((z_1 − b)/s) + b = z_1 |
| Affine.Forward | tts_uk/common.py:934-956 | the forward pass succeeds iff the shapes agree (`CouplingFits`), passes z_0 through unchanged, and keeps the shape of z_1 and of log_s |
| Affine.Inverse | tts_uk/common.py:934-952 | the inverse pass succeeds iff the shapes agree (`CouplingFits`), passes z_0 through unchanged, and keeps the shape of z_1 |
| Affine.PredictorSeesSameInputs | tts_uk/common.py:935-946 | inverting a forward output calls the predictor with the same z_0 and context, so it sees the same s and b |
| Affine.ForwardThenInverse | tts_uk/common.py:934-956 | the inverse pass applied to the forward output gives back the original latent |
| Affine.InverseThenForward | tts_uk/common.py:934-956 | the forward pass applied to the inverse output succeeds and gives back the original latent |
| Affine.ForwardScalesByExpLogS | tts_uk/common.py:945-956 | element by element, log_s and s are what the layer's own scaling function gives for the predicted logit, out_1 = s·z_1 + b, and so log_s is the log of the factor z_1 was scaled by: out_1 − b = exp(log_s)·z_1 with exp(log_s) > 0 |
| Affine.InverseDividesByScale | tts_uk/common.py:945-952 | element by element, the inverse pass gives (z_1 − b) / s, with s what the layer's own scaling function gives for the predicted logit |
| Spline.Normalize | tts_uk/common.py:698-705 | maps [left, right] (the [bottom, top] range when inverse) affinely onto [0, 1]; the result lies in [0, 1] iff the input lies in that domain |
| Spline.Denormalize | tts_uk/common.py:707-713 | maps [0, 1] affinely onto [left, right] when inverse and onto [bottom, top] otherwise; the result lies in that range iff the input lies in [0, 1] |
| Spline.DenormalizeUndoesNormalize | tts_uk/common.py:698-713 | normalizing in the forward direction and denormalizing in the inverse direction gives back the input |
| Spline.NormalizeUndoesDenormalize | tts_uk/common.py:698-713 | denormalizing forward onto [bottom, top] and normalizing inverse gives back the input |
| Spline.DenormalizeUndoesInverseNormalize | tts_uk/common.py:698-713 | normalizing inverse from [bottom, top] and denormalizing inverse onto [left, right] gives back the input |
| Spline.NormalizeUndoesInverseDenormalize | tts_uk/common.py:698-713 | denormalizing inverse onto [left, right] and normalizing forward gives back the input |
| Spline.WarningIffOutsideDomain | tts_uk/common.py:718-721 | the "scaled beyond [0, 1]" warning fires iff some element of the input lies outside the direction's domain |
| Spline.BinCount | tts_uk/common.py:779-783 | with quadratic splines the bin count becomes 2n + 1, which the forward pass (lines 817-818) splits at n_bins // 2 into n widths and n + 1 vertex values; the linear spline keeps n bins |
| Spline.NewSplineLayer | tts_uk/common.py:767-783 | the constructed layer keeps the bounds and the quadratic flag, splits at int(n_mel/2), and takes its bin count from `BinCount` (2n + 1 for the quadratic spline, which `BinCount` shows splits into n widths and n + 1 heights) |
| Spline.SplineStepInverts | tts_uk/common.py:804-842 | for one element, rescaling, the spline and the reverse rescaling in one direction is undone by the other direction when the spline pair are inverses |
| Spline.SplineOutput | tts_uk/common.py:812-842 | z_1 keeps its shape, and each element goes through the spline with the bin parameters predicted for its channel and time step |
| Spline.SplineOutputInverts | tts_uk/common.py:812-842 | the element-wise spline map in one direction is undone by the map in the other direction with the same parameters |
| Spline.Transform | tts_uk/common.py:797-847 | succeeds iff z can be split, the context matches its batch and time lengths (line 810 concatenates z_0 and the context along the channel axis), and the predicted parameters hold one bin block per element of z_1; z_0 passes through unchanged as the first half, and the second half is z_1 normalized, sent through the spline with its predicted bins (lines 812-813) and denormalized |
| Spline.TransformRoundTrip | tts_uk/common.py:797-847 | the layer applied in the opposite direction to its own output, with the same context, gives back the latent |
| Strings.JoinSplit | tts_uk/common.py:1065-1072 | joining the pieces of str.split with the separator gives the string back, and there is one more piece than separators |
| Strings.SplitAroundOne | tts_uk/common.py:1065 | a string with exactly one separator splits into the text before it and the text after it |
| Config.UpdateParam | tts_uk/common.py:1062-1080 | the override with the value parsed once: text without exactly one '=' fails to unpack; otherwise a failed walk to the parent of the last key segment is the error raised, and under a dictionary parent an existing last key ends up holding the parsed value while a missing one leaves the configuration unchanged |
| Config.UnpackNeedsOneEquals | tts_uk/common.py:1065 | an override raises the unpacking error iff its text does not hold exactly one '=' |
| Config.SetPathOutcome | tts_uk/common.py:1071-1080 | a failed walk to the parent of the final key is the error raised; under a dictionary parent an existing final key ends up holding the value and a missing one leaves the configuration unchanged |
| Config.SetPathLeavesOthers | tts_uk/common.py:1071-1080 | an override leaves every path outside its own key path exactly as it was |
| Config.UpdateParams | tts_uk/common.py:1062-1080 | one override gives the outcome of `UpdateParam` (its error, or its result with no error), none leaves the configuration unchanged, and with `UpdateParamsAppend` this fixes the whole loop; a run that raises nothing had exactly one '=' in every override; well-formed overrides with undotted keys never raise on a dictionary and leave a dictionary |
| Config.TopLevelOverrideSucceeds | tts_uk/common.py:1076-1080 | an override with one '=' and an undotted key never raises on a dictionary, whatever its value: an existing key is overwritten and a missing one skipped |
| Config.TopLevelOverrideStores | tts_uk/common.py:1065-1080 | an override with one '=' and an undotted key, on a dictionary, stores the value parsed from the text after '=' under the key when it is present and otherwise leaves the configuration unchanged, whatever dots the value contains |
| Config.DottedValueIsTopLevel | tts_uk/common.py:1065-1078 | an instance of `Config.TopLevelOverrideStores`: "name=a.b" on {"name": "x"} stores the text "a.b" under "name": the dot in the value does not make the key dotted, and text that is no literal is kept as written |
| Config.UpdateParamsAppend | tts_uk/common.py:1063-1080 | two override lists applied one after the other equal their concatenation, and the loop stops at the first error |
| Config.UpdateParamAsWritten | tts_uk/common.py:1062-1080 | the recursion as written, which passes str(v) back through literal_eval; a text without exactly one '=' still fails to unpack |
| Config.AsWrittenMatchesWhenReparseStable | tts_uk/common.py:1072-1075 | when literal_eval(str(v)) = v, the code as written and the corrected override give the same result |
| Config.AsWrittenMatchesOnTopLevelKeys | tts_uk/common.py:1071-1078 | for an undotted key the code as written and the corrected override agree |
| Config.QuotedNumberBecomesInt | tts_uk/common.py:1072-1075 | as written, "a.b='5'" stores the integer 5 at a.b although the override's value is the string "5" |
| Config.QuotedNumberStaysString | tts_uk/common.py:1072-1078 | corrected, "a.b='5'" stores the string "5", just as the top-level override "b='5'" does |

## Left out

- Affine.Forward: covers a single scaling function only. The list-valued `scaling_fn` branch of `get_scaling_and_logs` (tts_uk/common.py:912-931) is not modelled. It slices the batch axis at line 917 and drops the +10 sigmoid shift at line 926, so it does not agree with the scalar branches. The constructor's validation of lists is modelled in `Affine.NewLayer`.
- Affine.Inverse: the same single-function restriction as `Affine.Forward`.
- Spline.Transform: returns the transformed latent only. The spline's log-determinant and the `n_half * (log(top − bottom) − log(right − left))` correction are float numerics of a spline module that is not part of this model.
- Spline.Normalize: requires both ranges to have non-zero width. With a zero width torch divides by zero and yields inf/nan, which exact reals cannot represent.
- Spline.TransformRoundTrip: assumes that the linear spline and its inverse, and the quadratic spline in its two directions, are mutual inverses. The spline functions come from a module that is not part of this model.
- Unsort.SortDescending: `torch.sort` leaves the order of equal lengths unspecified. The model fixes one order (a stable insertion sort), and its contract states only what every admissible order shares: a permutation, sorted non-increasing.
- Unsort.RunUnsortedInputs: the packed-sequence function is modelled item by item, as a function of one item and its length. `pack_padded_sequence`/`pad_packed_sequence` re-padding to the longest item is not modelled.
- `SplineTransformationLayerAR.forward` is left out apart from its `normalize`/`denormalize`. Its linear branch calls the forward spline even when `inverse` is set (tts_uk/common.py:728-735).
- The learned networks (`ConvNorm`, `SimpleConvNet`, `WN`, `Encoder`, the convolutions and LSTM of `ConvLSTMLinear`, `DenseLayer`, `LinearNorm`) are float tensor computations. The coupling layers take them as opaque predictor functions.
- `Invertible1x1Conv`/`Invertible1x1ConvLUS`: QR/LU factorisation, matrix inverses, log-determinants and the inverse-weight cache are linear algebra on floats.
- `ConvAttention`: Gaussian distances, (log-)softmax and −inf masking are transcendental float numerics.
- Floating-point rounding, fp16/autocast/CUDA paths and torch's broadcasting of size-1 dimensions are not modelled. The shape checks modelled are the channel split, the batch and time agreement that concatenating z_0 with the context demands, and the shapes of the predicted parameters; a failed one is a `ShapeMismatch` error. Shape requirements inside a learned predictor belong to the predictor function.
- Config.UpdateParam: for a dotted key it hands the parsed value down the path once. The code instead re-serialises the value with `str(v)` and parses it again at every level (tts_uk/common.py:1074-1075). That recursion is modelled as written in `Config.UpdateParamAsWritten`, and the two are compared under "## Findings".
- Config.UpdateParam: `ast.literal_eval` is modelled on a subset: decimal integers with an optional sign, and single- or double-quoted strings without escapes. Text that `literal_eval` rejects is kept as the raw string, as the `except` branch does. Other forms Python does parse are kept as text only in the model: floats such as "0.5", "True", "None", lists, escapes in strings. Floats and containers have no counterpart in the value type. `print` logging is not modelled.
- Config.UpdateParams: applies the parse-once override `Config.UpdateParam`, so for dotted keys it is the corrected loop, not the `str(v)` re-parse of tts_uk/common.py:1074-1075. A single override as written, with the re-parse at every level, is `Config.UpdateParamAsWritten`.
- Config.UpdateParams: the in-place mutation of a dictionary that other holders alias is not modelled. The configuration is a value, and the result is the updated value with the error, if any, that stopped the loop.
- `vocos/pretrained.py` (hub downloads, YAML reading, dynamic imports, `torch.load`) and `example.py` (an external synthesis call and a WAV write) are I/O and foreign calls.

## Findings

| source | as written | input that shows it | evidently intended | confidence | as-written member | corrected member |
|---|---|---|---|---|---|---|
| tts_uk/common.py:1072-1075 | a dotted override re-serialises the parsed value with `str(v)` and parses it again with `literal_eval` at each level, so a quoted number loses its quotes | configuration {"a": {"b": "x"}}, overrides ["a.b='5'"]: a.b becomes the integer 5 | the value is parsed once, so a.b becomes the string "5" as the top-level override "b='5'" gives | medium, not executed | Config.QuotedNumberBecomesInt | Config.QuotedNumberStaysString |

=== FILE: affine.dfy ===
/** `AffineTransformationLayer`: the affine coupling layer of the flow.
    The channels are split into z_0, passed through untouched, and z_1,
    mapped to s * z_1 + b, where s and b come from a learned predictor that
    sees only z_0 and the context.  The predictor is a parameter. */
module Affine {
  import opened Wrappers
  import opened Tensors
  import opened RealMath

  /** The value passed as `scaling_fn`: one name, or a list of names. */
  datatype ScalingArg = Name(name: string) | Names(names: seq<string>)

  datatype ScalingFn = Translate | Exp | Tanh | Sigmoid

  datatype Scaling = Single(fn: ScalingFn) | PerChannel(fns: seq<ScalingFn>)

  datatype AffineModel = WaveNet | SimpleConv

  /** What the predictor is called with: `(z_0, context)` for the WaveNet
      predictor, `torch.cat((z_0, context), 1)` for the convolutional one. */
  datatype PredictorInput = Pair(z0: Tensor, context: Tensor) | Joined(zWithContext: Tensor)

  datatype Layer = Layer(
    nMelChannels: nat,
    nContextDim: nat,
    model: AffineModel,
    scaling: Scaling,
    predictor: (PredictorInput, SeqLens) -> Tensor)

  datatype LayerError =
    | UnsupportedModel(model: string)
    | UnsupportedScaling(arg: ScalingArg)
    | ShapeMismatch

  function ParseScalingFn(name: string): Option<ScalingFn> {
    if name == "translate" then Some(Translate)
    else if name == "exp" then Some(Exp)
    else if name == "tanh" then Some(Tanh)
    else if name == "sigmoid" then Some(Sigmoid)
    else None
  }

  function ScalingName(fn: ScalingFn): string {
    match fn
    case Translate => "translate"
    case Exp => "exp"
    case Tanh => "tanh"
    case Sigmoid => "sigmoid"
  }

  function ModelName(model: AffineModel): string {
    match model
    case WaveNet => "wavenet"
    case SimpleConv => "simple_conv"
  }

  /** The scaling argument a validated `Scaling` was built from. */
  function ScalingArgOf(scaling: Scaling): ScalingArg {
    match scaling
    case Single(fn) => Name(ScalingName(fn))
    case PerChannel(fns) => Names(seq(|fns|, i requires 0 <= i < |fns| => ScalingName(fns[i])))
  }

  predicate SupportedName(name: string) {
    name in ["translate", "exp", "tanh", "sigmoid"]
  }

  /** Parses every name of a list, failing on the first unsupported one. */
  function ParseScalingList(names: seq<string>): (r: Option<seq<ScalingFn>>)
    ensures r.Some? <==> forall i :: 0 <= i < |names| ==> SupportedName(names[i])
    ensures r.Some? ==> |r.value| == |names|
    ensures r.Some? ==> forall i :: 0 <= i < |names| ==> ScalingName(r.value[i]) == names[i]
  {
    if |names| == 0 then Some([])
    else
      var last := ParseScalingFn(names[|names| - 1]);
      match ParseScalingList(names[..|names| - 1])
      case None => None
      case Some(front) =>
        if last.None? then None else Some(front + [last.value])
  }

  function ParseScaling(arg: ScalingArg): Option<Scaling> {
    match arg
    case Name(n) =>
      var fn := ParseScalingFn(n);
      if fn.None? then None else Some(Single(fn.value))
    case Names(ns) =>
      var fns := ParseScalingList(ns);
      if fns.None? then None else Some(PerChannel(fns.value))
  }

  predicate SupportedScaling(arg: ScalingArg) {
    match arg
    case Name(n) => SupportedName(n)
    case Names(ns) => forall i :: 0 <= i < |ns| ==> SupportedName(ns[i])
  }

  /** The constructor's validation: an unknown affine model is refused
      first, then an unsupported scaling-function name (or any unsupported
      name in a list).  A built layer remembers exactly the names it was
      given. */
  function NewLayer(nMelChannels: nat, nContextDim: nat, affineModel: string,
                    scalingFn: ScalingArg, predictor: (PredictorInput, SeqLens) -> Tensor)
    : (r: Result<Layer, LayerError>)
    ensures affineModel != "wavenet" && affineModel != "simple_conv" ==>
              r == Failure(UnsupportedModel(affineModel))
    ensures (affineModel == "wavenet" || affineModel == "simple_conv") && !SupportedScaling(scalingFn) ==>
              r == Failure(UnsupportedScaling(scalingFn))
    ensures r.Success? <==>
              (affineModel == "wavenet" || affineModel == "simple_conv") && SupportedScaling(scalingFn)
    ensures r.Success? ==>
              && ModelName(r.value.model) == affineModel
              && ScalingArgOf(r.value.scaling) == scalingFn
              && r.value.nMelChannels == nMelChannels
              && r.value.nContextDim == nContextDim
  {
    var model :=
      if affineModel == "wavenet" then Some(WaveNet)
      else if affineModel == "simple_conv" then Some(SimpleConv)
      else None;
    if model.None? then Failure(UnsupportedModel(affineModel))
    else
      match ParseScaling(scalingFn)
      case None => Failure(UnsupportedScaling(scalingFn))
      case Some(scaling) =>
        assert scalingFn.Names? ==> ScalingArgOf(scaling).names == scalingFn.names;
        Success(Layer(nMelChannels, nContextDim, model.value, scaling, predictor))
  }

  /** `get_scaling_and_logs` for one element and a single scaling function:
      the multiplier s is strictly positive and log_s is its logarithm
      (exp(log_s) = s).  translate gives s = 1 and log_s = 0, exp passes its
      input through as log_s, and tanh and sigmoid keep s above 1e-6. */
  function ScaleAndLog(fn: ScalingFn, m: Math, u: real): (r: (real, real))
    requires Sound(m)
    ensures r.0 > 0.0
    ensures m.exp(r.1) == r.0
    ensures fn == Translate ==> r == (1.0, 0.0)
    ensures fn == Exp ==> r.1 == u
    ensures fn == Tanh ==> 0.000001 < r.0 < 2.000001
    ensures fn == Sigmoid ==> 0.000001 < r.0 < 1.000001
  {
    match fn
    case Translate => (m.exp(u * 0.0), u * 0.0)
    case Exp => (m.exp(u), u)
    case Tanh =>
      var s := m.tanh(u) + 1.0 + 0.000001;
      (s, m.log(s))
    case Sigmoid =>
      var s := m.sigmoid(u + 10.0) + 0.000001;
      (s, m.log(s))
  }

  function Scale(fn: ScalingFn, m: Math, u: real): real
    requires Sound(m)
  {
    ScaleAndLog(fn, m, u).0
  }

  function LogScale(fn: ScalingFn, m: Math, u: real): real
    requires Sound(m)
  {
    ScaleAndLog(fn, m, u).1
  }

  /** `int(n_mel_channels / 2)`. */
  function Half(layer: Layer): nat {
    layer.nMelChannels / 2
  }

  /** The predictor's input for a latent whose first `Half` channels are z_0. */
  function PredictorInputOf(layer: Layer, z0: Tensor, context: Tensor): PredictorInput
    requires |z0| == |context|
  {
    match layer.model
    case WaveNet => Pair(z0, context)
    case SimpleConv => Joined(Cat(z0, context))
  }

  /** The split halves and the predictor's output, once every shape agrees:
      z has nMelChannels channels of one length, the context matches its
      batch and length, and the predictor's scale and shift halves both
      have the shape of z_1. */
  datatype Coupling = Coupling(z0: Tensor, z1: Tensor, logits: Tensor, shift: Tensor)

  /** The predictor's output for z: scale logits in the first `Half`
      channels, shifts in the rest. */
  function PredictedAffineParams(layer: Layer, z: Tensor, context: Tensor, seqLens: SeqLens): Tensor
    requires HasChannels(z, Half(layer)) && |context| == |z|
  {
    layer.predictor(PredictorInputOf(layer, Channels(z, 0, Half(layer)), context), seqLens)
  }

  /** Every shape the coupling relies on agrees: z and the context share
      batch and time sizes, as `torch.cat((z_0, context), 1)` demands in
      both predictor models, and the predicted scale and shift halves have
      the shape of z_1. */
  predicate CouplingFits(layer: Layer, z: Tensor, context: Tensor, seqLens: SeqLens) {
    var h := Half(layer);
    && HasChannels(z, h)
    && |context| == |z|
    && TimeAligned(z, context)
    && var params := PredictedAffineParams(layer, z, context, seqLens);
       && HasChannels(params, h)
       && SameShape(Channels(params, 0, h), ChannelsFrom(z, h))
       && SameShape(ChannelsFrom(params, h), ChannelsFrom(z, h))
  }

  function Couple(layer: Layer, z: Tensor, context: Tensor, seqLens: SeqLens): (r: Result<Coupling, LayerError>)
    ensures r.Success? <==> CouplingFits(layer, z, context, seqLens)
    ensures r.Success? ==>
      && HasChannels(z, Half(layer))
      && r.value.z0 == Channels(z, 0, Half(layer))
      && r.value.z1 == ChannelsFrom(z, Half(layer))
      && SameShape(r.value.logits, r.value.z1)
      && SameShape(r.value.shift, r.value.z1)
      && (forall i :: 0 <= i < |z| ==> |r.value.z0[i]| == Half(layer))
    ensures r.Success? ==>
      && r.value.logits == Channels(PredictedAffineParams(layer, z, context, seqLens), 0, Half(layer))
      && r.value.shift == ChannelsFrom(PredictedAffineParams(layer, z, context, seqLens), Half(layer))
  {
    var h := Half(layer);
    if !CouplingFits(layer, z, context, seqLens) then Failure(ShapeMismatch)
    else
      var params := PredictedAffineParams(layer, z, context, seqLens);
      Success(Coupling(Channels(z, 0, h), ChannelsFrom(z, h), Channels(params, 0, h), ChannelsFrom(params, h)))
  }

  /** One element of z_1 through the forward coupling: s * z_1 + b. */
  function AffineStep(fn: ScalingFn, m: Math, x: real, shift: real, logit: real): real
    requires Sound(m)
  {
    Scale(fn, m, logit) * x + shift
  }

  /** One element of z_1 through the inverse coupling: (z_1 - b) / s. */
  function AffineStepBack(fn: ScalingFn, m: Math, y: real, shift: real, logit: real): real
    requires Sound(m)
  {
    (y - shift) / Scale(fn, m, logit)
  }

  function StepFn(fn: ScalingFn, m: Math): (real, real, real) -> real
    requires Sound(m)
  {
    (x, bv, u) => AffineStep(fn, m, x, bv, u)
  }

  function StepBackFn(fn: ScalingFn, m: Math): (real, real, real) -> real
    requires Sound(m)
  {
    (y, bv, u) => AffineStepBack(fn, m, y, bv, u)
  }

  lemma DivideBack(s: real, x: real, b: real)
    requires s > 0.0
    ensures (s * x + b - b) / s == x
    ensures s * ((x - b) / s) + b == x
  {
  }

  /** Element by element, the inverse step undoes the forward step, because s > 0. */
  lemma StepBackUndoesStep(fn: ScalingFn, m: Math, z1: Tensor, shift: Tensor, logits: Tensor)
    requires Sound(m)
    requires SameShape(z1, shift) && SameShape(z1, logits)
    ensures Map3(Map3(z1, shift, logits, StepFn(fn, m)), shift, logits, StepBackFn(fn, m)) == z1
  {
    var there := Map3(z1, shift, logits, StepFn(fn, m));
    var back := Map3(there, shift, logits, StepBackFn(fn, m));
    forall i, j, k | 0 <= i < |z1| && 0 <= j < |z1[i]| && 0 <= k < |z1[i][j]|
      ensures back[i][j][k] == z1[i][j][k]
    {
      DivideBack(Scale(fn, m, logits[i][j][k]), z1[i][j][k], shift[i][j][k]);
    }
    Extensionality(back, z1);
  }

  /** Element by element, the forward step undoes the inverse step, because s > 0. */
  lemma StepUndoesStepBack(fn: ScalingFn, m: Math, z1: Tensor, shift: Tensor, logits: Tensor)
    requires Sound(m)
    requires SameShape(z1, shift) && SameShape(z1, logits)
    ensures Map3(Map3(z1, shift, logits, StepBackFn(fn, m)), shift, logits, StepFn(fn, m)) == z1
  {
    var back := Map3(z1, shift, logits, StepBackFn(fn, m));
    var again := Map3(back, shift, logits, StepFn(fn, m));
    forall i, j, k | 0 <= i < |z1| && 0 <= j < |z1[i]| && 0 <= k < |z1[i][j]|
      ensures again[i][j][k] == z1[i][j][k]
    {
      DivideBack(Scale(fn, m, logits[i][j][k]), z1[i][j][k], shift[i][j][k]);
    }
    Extensionality(again, z1);
  }

  /** `forward(z, context, inverse=False)`: returns the transformed latent
      and log_s.  z_0 comes out unchanged and z_1 keeps its shape. */
  function Forward(layer: Layer, m: Math, z: Tensor, context: Tensor, seqLens: SeqLens)
    : (r: Result<(Tensor, Tensor), LayerError>)
    requires layer.scaling.Single? && Sound(m)
    ensures r.Success? <==> Couple(layer, z, context, seqLens).Success?
    ensures r.Success? <==> CouplingFits(layer, z, context, seqLens)
    ensures r.Success? ==>
      && CatSplitsAt(r.value.0, Couple(layer, z, context, seqLens).value.z0, Half(layer))
      && SameShape(ChannelsFrom(r.value.0, Half(layer)), Couple(layer, z, context, seqLens).value.z1)
      && SameShape(r.value.1, Couple(layer, z, context, seqLens).value.z1)
  {
    var c :- Couple(layer, z, context, seqLens);
    var fn := layer.scaling.fn;
    var logS := Map(c.logits, u => LogScale(fn, m, u));
    var z1 := Map3(c.z1, c.shift, c.logits, StepFn(fn, m));
    CatSplit(c.z0, z1, Half(layer));
    Success((Cat(c.z0, z1), logS))
  }

  /** `forward(z, context, inverse=True)`: returns the latent with z_1
      mapped back to (z_1 - b) / s.  z_0 comes out unchanged. */
  function Inverse(layer: Layer, m: Math, z: Tensor, context: Tensor, seqLens: SeqLens)
    : (r: Result<Tensor, LayerError>)
    requires layer.scaling.Single? && Sound(m)
    ensures r.Success? <==> Couple(layer, z, context, seqLens).Success?
    ensures r.Success? <==> CouplingFits(layer, z, context, seqLens)
    ensures r.Success? ==>
      && CatSplitsAt(r.value, Couple(layer, z, context, seqLens).value.z0, Half(layer))
      && SameShape(ChannelsFrom(r.value, Half(layer)), Couple(layer, z, context, seqLens).value.z1)
  {
    var c :- Couple(layer, z, context, seqLens);
    var fn := layer.scaling.fn;
    var z1 := Map3(c.z1, c.shift, c.logits, StepBackFn(fn, m));
    CatSplit(c.z0, z1, Half(layer));
    Success(Cat(c.z0, z1))
  }

  /** The predictor is called with identical inputs by the forward pass and
      by the inverse pass applied to the forward output: z_0 is passed
      through, so both passes see the same s and b. */
  lemma PredictorSeesSameInputs(layer: Layer, m: Math, z: Tensor, context: Tensor, seqLens: SeqLens)
    requires layer.scaling.Single? && Sound(m)
    requires Forward(layer, m, z, context, seqLens).Success?
    ensures var out := Forward(layer, m, z, context, seqLens).value.0;
      && Couple(layer, out, context, seqLens).Success?
      && Couple(layer, out, context, seqLens).value.z0 == Couple(layer, z, context, seqLens).value.z0
      && Couple(layer, out, context, seqLens).value.logits == Couple(layer, z, context, seqLens).value.logits
      && Couple(layer, out, context, seqLens).value.shift == Couple(layer, z, context, seqLens).value.shift
      && Couple(layer, out, context, seqLens).value.z1 == ChannelsFrom(out, Half(layer))
  {
    var c := Couple(layer, z, context, seqLens).value;
    var out := Forward(layer, m, z, context, seqLens).value.0;
    var h := Half(layer);
    var forwardZ1 := Map3(c.z1, c.shift, c.logits, StepFn(layer.scaling.fn, m));
    CatKeepsShape(z, h, forwardZ1, context);
    assert Channels(out, 0, h) == c.z0;
    assert PredictorInputOf(layer, Channels(out, 0, h), context) == PredictorInputOf(layer, c.z0, context);
  }

  /** Forward then inverse, with the same context, gives back the latent. */
  lemma ForwardThenInverse(layer: Layer, m: Math, z: Tensor, context: Tensor, seqLens: SeqLens)
    requires layer.scaling.Single? && Sound(m)
    requires Forward(layer, m, z, context, seqLens).Success?
    ensures Inverse(layer, m, Forward(layer, m, z, context, seqLens).value.0, context, seqLens) == Success(z)
  {
    var fn := layer.scaling.fn;
    var h := Half(layer);
    var c := Couple(layer, z, context, seqLens).value;
    var out := Forward(layer, m, z, context, seqLens).value.0;
    PredictorSeesSameInputs(layer, m, z, context, seqLens);
    var forwardZ1 := Map3(c.z1, c.shift, c.logits, StepFn(fn, m));
    CatSplit(c.z0, forwardZ1, h);
    StepBackUndoesStep(fn, m, c.z1, c.shift, c.logits);
    SplitCat(z, h);
  }

  /** Inverse then forward, with the same context, gives back the latent. */
  lemma InverseThenForward(layer: Layer, m: Math, z: Tensor, context: Tensor, seqLens: SeqLens)
    requires layer.scaling.Single? && Sound(m)
    requires Inverse(layer, m, z, context, seqLens).Success?
    ensures Forward(layer, m, Inverse(layer, m, z, context, seqLens).value, context, seqLens).Success?
    ensures Forward(layer, m, Inverse(layer, m, z, context, seqLens).value, context, seqLens).value.0 == z
  {
    var fn := layer.scaling.fn;
    var h := Half(layer);
    var c := Couple(layer, z, context, seqLens).value;
    var y := Inverse(layer, m, z, context, seqLens).value;
    var backZ1 := Map3(c.z1, c.shift, c.logits, StepBackFn(fn, m));
    CatSplit(c.z0, backZ1, h);
    CatKeepsShape(z, h, backZ1, context);
    assert PredictorInputOf(layer, Channels(y, 0, h), context) == PredictorInputOf(layer, c.z0, context);
    StepUndoesStepBack(fn, m, c.z1, c.shift, c.logits);
    SplitCat(z, h);
  }

  /** Element by element, the forward pass computes s and log_s from the
      predicted logit with the layer's own scaling function, returns that
      log_s, and maps z_1 to s * z_1 + b; so log_s is the log of the factor
      z_1 was scaled by: out_1 - b = exp(log_s) * z_1, with exp(log_s) > 0. */
  lemma ForwardScalesByExpLogS(layer: Layer, m: Math, z: Tensor, context: Tensor, seqLens: SeqLens,
                               i: nat, j: nat, k: nat)
    requires layer.scaling.Single? && Sound(m)
    requires Forward(layer, m, z, context, seqLens).Success?
    requires i < |Couple(layer, z, context, seqLens).value.z1|
    requires j < |Couple(layer, z, context, seqLens).value.z1[i]|
    requires k < |Couple(layer, z, context, seqLens).value.z1[i][j]|
    ensures var c := Couple(layer, z, context, seqLens).value;
      var (out, logS) := Forward(layer, m, z, context, seqLens).value;
      var (s, logs) := ScaleAndLog(layer.scaling.fn, m, c.logits[i][j][k]);
      && logS[i][j][k] == logs
      && ChannelsFrom(out, Half(layer))[i][j][k] == s * c.z1[i][j][k] + c.shift[i][j][k]
      && m.exp(logS[i][j][k]) > 0.0
      && ChannelsFrom(out, Half(layer))[i][j][k] - c.shift[i][j][k] == m.exp(logS[i][j][k]) * c.z1[i][j][k]
  {
    var fn := layer.scaling.fn;
    var c := Couple(layer, z, context, seqLens).value;
    var z1 := Map3(c.z1, c.shift, c.logits, StepFn(fn, m));
    var logS := Map(c.logits, u => LogScale(fn, m, u));
    assert Forward(layer, m, z, context, seqLens).value == (Cat(c.z0, z1), logS);
    ForwardElement(fn, m, c, Half(layer), i, j, k);
  }

  /** `ForwardScalesByExpLogS` for one coupling, away from the layer. */
  lemma ForwardElement(fn: ScalingFn, m: Math, c: Coupling, h: nat, i: nat, j: nat, k: nat)
    requires Sound(m)
    requires |c.z0| == |c.z1| && (forall b :: 0 <= b < |c.z0| ==> |c.z0[b]| == h)
    requires SameShape(c.z1, c.shift) && SameShape(c.z1, c.logits)
    requires i < |c.z1| && j < |c.z1[i]| && k < |c.z1[i][j]|
    ensures var out := Cat(c.z0, Map3(c.z1, c.shift, c.logits, StepFn(fn, m)));
      var logS := Map(c.logits, u => LogScale(fn, m, u));
      var (s, logs) := ScaleAndLog(fn, m, c.logits[i][j][k]);
      && HasChannels(out, h)
      && logS[i][j][k] == logs
      && ChannelsFrom(out, h)[i][j][k] == s * c.z1[i][j][k] + c.shift[i][j][k]
      && m.exp(logS[i][j][k]) > 0.0
      && ChannelsFrom(out, h)[i][j][k] - c.shift[i][j][k] == m.exp(logS[i][j][k]) * c.z1[i][j][k]
  {
    var z1 := Map3(c.z1, c.shift, c.logits, StepFn(fn, m));
    CatSplit(c.z0, z1, h);
    var u := c.logits[i][j][k];
    assert Map(c.logits, u => LogScale(fn, m, u))[i][j][k] == ScaleAndLog(fn, m, u).1;
    assert z1[i][j][k] == ScaleAndLog(fn, m, u).0 * c.z1[i][j][k] + c.shift[i][j][k];
  }

  /** Element by element, the inverse pass maps z_1 to (z_1 - b) / s, with s
      computed from the predicted logit by the layer's own scaling function. */
  lemma InverseDividesByScale(layer: Layer, m: Math, z: Tensor, context: Tensor, seqLens: SeqLens,
                              i: nat, j: nat, k: nat)
    requires layer.scaling.Single? && Sound(m)
    requires Inverse(layer, m, z, context, seqLens).Success?
    requires i < |Couple(layer, z, context, seqLens).value.z1|
    requires j < |Couple(layer, z, context, seqLens).value.z1[i]|
    requires k < |Couple(layer, z, context, seqLens).value.z1[i][j]|
    ensures var c := Couple(layer, z, context, seqLens).value;
      var out := Inverse(layer, m, z, context, seqLens).value;
      && ChannelsFrom(out, Half(layer))[i][j][k]
           == (c.z1[i][j][k] - c.shift[i][j][k]) / ScaleAndLog(layer.scaling.fn, m, c.logits[i][j][k]).0
  {
    var fn := layer.scaling.fn;
    var c := Couple(layer, z, context, seqLens).value;
    var z1 := Map3(c.z1, c.shift, c.logits, StepBackFn(fn, m));
    CatSplit(c.z0, z1, Half(layer));
  }
}

=== FILE: config.dfy ===
/** `update_params(config, params)`: "a.b.c=value" overrides applied to a
    nested configuration.  A dotted key descends one level per segment; the
    final key is overwritten only when it already exists.  Python's
    in-place mutation becomes a returned configuration. */
module Config {
  import opened Wrappers
  import opened Strings

  /** The literal values `ast.literal_eval` yields in this model. */
  datatype Literal = LInt(i: int) | LStr(s: string)

  /** A configuration node: a parsed leaf or a nested dictionary. */
  datatype Value = Leaf(lit: Literal) | Dict(entries: map<string, Value>)

  datatype ConfigError =
    | UnpackError(param: string)   // `k, v = param.split("=")` without exactly one '='
    | KeyError(key: string)        // `config[parent_k]` on a dictionary without that key
    | TypeError(key: string)       // subscripting or assigning into a non-dictionary

  predicate IsDigit(c: char) {
    '0' <= c <= '9'
  }

  function DigitsValue(s: string): nat
    requires forall i :: 0 <= i < |s| ==> IsDigit(s[i])
  {
    if |s| == 0 then 0
    else
      var d := (s[|s| - 1] as int) - ('0' as int);
      assert 0 <= d by { assert IsDigit(s[|s| - 1]); }
      DigitsValue(s[..|s| - 1]) * 10 + d
  }

  /** A decimal integer literal: digits, no leading zero unless all zeros. */
  predicate IsDecimal(s: string) {
    && |s| > 0
    && (forall i :: 0 <= i < |s| ==> IsDigit(s[i]))
    && (s[0] != '0' || forall i :: 0 <= i < |s| ==> s[i] == '0')
  }

  /** A quoted string literal without escapes or its own quote inside. */
  predicate IsQuoted(s: string) {
    && |s| >= 2
    && (s[0] == '\'' || s[0] == '"')
    && s[|s| - 1] == s[0]
    && forall i :: 1 <= i < |s| - 1 ==> s[i] != s[0] && s[i] != '\\'
  }

  /** `ast.literal_eval` on the forms this model recognises: a decimal
      integer with at most one sign, or a quoted string. */
  function LiteralEval(s: string): Option<Literal> {
    if IsDecimal(s) then Some(LInt(DigitsValue(s)))
    else if |s| > 1 && s[0] == '-' && IsDecimal(s[1..]) then Some(LInt(-(DigitsValue(s[1..]) as int)))
    else if |s| > 1 && s[0] == '+' && IsDecimal(s[1..]) then Some(LInt(DigitsValue(s[1..])))
    else if IsQuoted(s) then Some(LStr(s[1..|s| - 1]))
    else None
  }

  /** `v = ast.literal_eval(v)`, keeping the raw text when that raises. */
  function ParseValue(raw: string): Literal {
    match LiteralEval(raw)
    case Some(lit) => lit
    case None => LStr(raw)
  }

  function NatToString(n: nat): (r: string)
    ensures |r| > 0 && forall i :: 0 <= i < |r| ==> IsDigit(r[i])
  {
    var d := ['0' + (n % 10) as char];
    if n < 10 then d else NatToString(n / 10) + d
  }

  /** Python's `str(v)`. */
  function Show(lit: Literal): string {
    match lit
    case LInt(i) => if i < 0 then "-" + NatToString(-i) else NatToString(i)
    case LStr(s) => s
  }

  /** `config[key]`. */
  function Subscript(config: Value, key: string): (r: Result<Value, ConfigError>)
    ensures r.Success? ==> config.Dict? && key in config.entries && r.value == config.entries[key]
  {
    match config
    case Dict(m) => if key in m then Success(m[key]) else Failure(KeyError(key))
    case Leaf(_) => Failure(TypeError(key))
  }

  /** `config[k]` for each segment of `path` in turn. */
  function Walk(config: Value, path: seq<string>): Result<Value, ConfigError>
    decreases |path|
  {
    if |path| == 0 then Success(config)
    else
      var child :- Subscript(config, path[0]);
      Walk(child, path[1..])
  }

  /** The final segment: `elif k in config: config[k] = v`, otherwise the
      override is reported and skipped.  For a string node `k in config`
      is a substring test, and assigning into a string raises. */
  function SetLeaf(config: Value, key: string, v: Literal): (r: Result<Value, ConfigError>)
    ensures config.Dict? ==> r.Success? && r.value.Dict?
  {
    match config
    case Dict(m) => if key in m then Success(Dict(m[key := Leaf(v)])) else Success(config)
    case Leaf(LStr(s)) => if IsSubstring(key, s) then Failure(TypeError(key)) else Success(config)
    case Leaf(LInt(_)) => Failure(TypeError(key))
  }

  /** Applies an already parsed value along a path of key segments: the
      recursion of `update_params` with the value handed down unchanged. */
  function SetPath(config: Value, path: seq<string>, v: Literal): (r: Result<Value, ConfigError>)
    requires |path| >= 1
    decreases |path|
  {
    if |path| > 1 then
      var child :- Subscript(config, path[0]);
      var updated :- SetPath(child, path[1..], v);
      Success(Dict(config.entries[path[0] := updated]))
    else SetLeaf(config, path[0], v)
  }

  /** One override "key=value", the value parsed once.  Text without
      exactly one '=' fails to unpack.  Otherwise the dotted key is walked
      to the parent of its last segment: a failed walk is the error raised;
      under a dictionary parent an existing last key ends up holding the
      parsed value and a missing one leaves the configuration unchanged. */
  function UpdateParam(config: Value, param: string): (r: Result<Value, ConfigError>)
    ensures Count(param, '=') != 1 ==> r == Failure(UnpackError(param))
    ensures |Split(param, '=')| == 2 ==>
      var path := Split(Split(param, '=')[0], '.');
      var v := ParseValue(Split(param, '=')[1]);
      var parent := Walk(config, path[..|path| - 1]);
      var last := path[|path| - 1];
      && (parent.Failure? ==> r == Failure(parent.error))
      && (parent.Success? && parent.value.Dict? && last in parent.value.entries ==>
            r.Success? && Walk(r.value, path) == Success(Leaf(v)))
      && (parent.Success? && parent.value.Dict? && last !in parent.value.entries ==>
            r == Success(config))
  {
    var parts := Split(param, '=');
    JoinSplit(param, '=');
    if |parts| != 2 then Failure(UnpackError(param))
    else
      SetPathOutcome(config, Split(parts[0], '.'), ParseValue(parts[1]));
      SetPath(config, Split(parts[0], '.'), ParseValue(parts[1]))
  }

  /** The configuration after the overrides, and the error that stopped
      them if one did; the overrides before it stay applied. */
  datatype Outcome = Outcome(config: Value, error: Option<ConfigError>)

  /** `update_params(config, params)`: the overrides in order. */
  function UpdateParams(config: Value, params: seq<string>): (r: Outcome)
    ensures |params| == 0 ==> r == Outcome(config, None)
    ensures |params| == 1 ==>
              r == match UpdateParam(config, params[0])
                   case Failure(e) => Outcome(config, Some(e))
                   case Success(next) => Outcome(next, None)
    ensures r.error.None? ==> forall i :: 0 <= i < |params| ==> Count(params[i], '=') == 1
    ensures (forall i :: 0 <= i < |params| ==> Count(params[i], '=') == 1 && '.' !in Split(params[i], '=')[0]) && config.Dict? ==>
              r.error.None? && r.config.Dict?
    decreases |params|
  {
    if |params| == 0 then Outcome(config, None)
    else
      TopLevelOverrideSucceeds(config, params[0]);
      match UpdateParam(config, params[0])
      case Failure(e) => Outcome(config, Some(e))
      case Success(next) => UpdateParams(next, params[1..])
  }

  /** A well-formed override with an undotted key never raises on a
      dictionary, whatever its value: a missing key is skipped and an
      existing one overwritten. */
  lemma TopLevelOverrideSucceeds(config: Value, param: string)
    ensures config.Dict? && Count(param, '=') == 1 && '.' !in Split(param, '=')[0] ==>
              UpdateParam(config, param).Success? && UpdateParam(config, param).value.Dict?
  {
    if config.Dict? && Count(param, '=') == 1 && '.' !in Split(param, '=')[0] {
      JoinSplit(param, '=');
      SplitNone(Split(param, '=')[0], '.');
    }
  }

  /** An override with exactly one '=' and a key without a dot, on a
      dictionary, stores the value parsed from the text after '=' under
      that key when the key is present, and otherwise changes nothing,
      whatever dots the value contains: only the key is split on '.'. */
  lemma TopLevelOverrideStores(config: Value, param: string)
    ensures config.Dict? && |Split(param, '=')| == 2 && '.' !in Split(param, '=')[0] ==>
              var key := Split(param, '=')[0];
              var v := ParseValue(Split(param, '=')[1]);
              UpdateParam(config, param)
                == Success(if key in config.entries then Dict(config.entries[key := Leaf(v)]) else config)
  {
    if config.Dict? && |Split(param, '=')| == 2 && '.' !in Split(param, '=')[0] {
      SplitNone(Split(param, '=')[0], '.');
    }
  }

  /** "name=a.b", an instance of `TopLevelOverrideStores`: a dot in the
      value does not make the key dotted; the text is no literal, so it is
      stored as written. */
  lemma DottedValueIsTopLevel()
    ensures UpdateParam(Dict(map["name" := Leaf(LStr("x"))]), "name=a.b")
              == Success(Dict(map["name" := Leaf(LStr("a.b"))]))
  {
    assert "name=a.b" == "name" + ['='] + "a.b";
    SplitAroundOne("name", "a.b", '=');
    SplitNone("name", '.');
    assert ParseValue("a.b") == LStr("a.b");
    assert map["name" := Leaf(LStr("x"))]["name" := Leaf(LStr("a.b"))] == map["name" := Leaf(LStr("a.b"))];
  }

  // ---------------------------------------------------------------------
  // Properties of the override

  /** Applying two lists of overrides one after the other is applying
      their concatenation: the loop carries the configuration forward and
      stops at the first error. */
  lemma {:induction false} UpdateParamsAppend(config: Value, a: seq<string>, b: seq<string>)
    ensures var first := UpdateParams(config, a);
            UpdateParams(config, a + b)
              == if first.error.Some? then first else UpdateParams(first.config, b)
    decreases |a|
  {
    if |a| == 0 {
      assert a + b == b;
    } else {
      assert (a + b)[0] == a[0];
      assert (a + b)[1..] == a[1..] + b;
      match UpdateParam(config, a[0])
      case Failure(e) =>
      case Success(next) => UpdateParamsAppend(next, a[1..], b);
    }
  }


  /** The outcome of an override is decided by walking to the parent of the
      final key: a failed walk is the error raised (a missing key raises a
      lookup error); under a dictionary parent, an existing final key is
      overwritten with the value and a missing one leaves the whole
      configuration unchanged. */
  lemma {:induction false} SetPathOutcome(config: Value, path: seq<string>, v: Literal)
    requires |path| >= 1
    ensures var parent := Walk(config, path[..|path| - 1]);
      var last := path[|path| - 1];
      && (parent.Failure? ==> SetPath(config, path, v) == Failure(parent.error))
      && (parent.Success? && parent.value.Dict? && last in parent.value.entries ==>
            && SetPath(config, path, v).Success?
            && Walk(SetPath(config, path, v).value, path) == Success(Leaf(v)))
      && (parent.Success? && parent.value.Dict? && last !in parent.value.entries ==>
            SetPath(config, path, v) == Success(config))
    decreases |path|
  {
    if |path| > 1 {
      var parentPath := path[..|path| - 1];
      assert parentPath[1..] == path[1..][..|path| - 2];
      assert parentPath[0] == path[0];
      match Subscript(config, path[0])
      case Failure(e) =>
      case Success(child) =>
        SetPathOutcome(child, path[1..], v);
        var r := SetPath(config, path, v);
        if r.Success? {
          assert r.value.entries[path[0]] == SetPath(child, path[1..], v).value;
          if SetPath(child, path[1..], v) == Success(child) {
            assert config.entries[path[0] := child] == config.entries;
          }
        }
    }
  }

  /** An override changes nothing outside its own path: any path that
      neither leads to nor extends the updated key finds what it found
      before (the same value or the same error). */
  lemma {:induction false} SetPathLeavesOthers(config: Value, path: seq<string>, v: Literal, q: seq<string>)
    requires |path| >= 1
    requires SetPath(config, path, v).Success?
    requires !(q <= path) && !(path <= q)
    ensures Walk(SetPath(config, path, v).value, q) == Walk(config, q)
    decreases |path|
  {
    var r := SetPath(config, path, v).value;
    if |path| == 1 {
      if config.Dict? && path[0] in config.entries {
        assert q[0] != path[0];
      }
    } else {
      var child := Subscript(config, path[0]).value;
      if q[0] == path[0] {
        SetPathLeavesOthers(child, path[1..], v, q[1..]);
      }
    }
  }

  /** A parameter without exactly one '=' fails to unpack, and one with
      exactly one '=' never does. */
  lemma UnpackNeedsOneEquals(config: Value, param: string)
    ensures (UpdateParam(config, param).Failure? && UpdateParam(config, param).error.UnpackError?)
            <==> Count(param, '=') != 1
  {
    JoinSplit(param, '=');
    var parts := Split(param, '=');
    if |parts| == 2 {
      SetPathNeverUnpackError(config, Split(parts[0], '.'), ParseValue(parts[1]));
    }
  }

  lemma {:induction false} SetPathNeverUnpackError(config: Value, path: seq<string>, v: Literal)
    requires |path| >= 1
    ensures SetPath(config, path, v).Failure? ==> !SetPath(config, path, v).error.UnpackError?
    decreases |path|
  {
    if |path| > 1 && Subscript(config, path[0]).Success? {
      SetPathNeverUnpackError(Subscript(config, path[0]).value, path[1..], v);
    }
  }

  // ---------------------------------------------------------------------
  // The recursion as written: the value goes down as text

  /** One override as `update_params` writes it: for a dotted key the
      recursion receives `".".join(rest) + "=" + str(v)`, so the value is
      printed and parsed again at every level. */
  function UpdateParamAsWritten(config: Value, param: string): (r: Result<Value, ConfigError>)
    ensures Count(param, '=') != 1 ==> r == Failure(UnpackError(param))
    decreases config
  {
    JoinSplit(param, '=');
    var parts := Split(param, '=');
    if |parts| != 2 then Failure(UnpackError(param))
    else
      var k := parts[0];
      var v := ParseValue(parts[1]);
      var kSplit := Split(k, '.');
      if |kSplit| > 1 then
        var child :- Subscript(config, kSplit[0]);
        var curParam := Join('.', kSplit[1..]) + "=" + Show(v);
        var updated :- UpdateParamAsWritten(child, curParam);
        Success(Dict(config.entries[kSplit[0] := updated]))
      else SetLeaf(config, k, v)
  }

  /** Printing a value parsed from text without '=' yields text without '='. */
  lemma ShowAvoidsEquals(raw: string)
    requires '=' !in raw
    ensures '=' !in Show(ParseValue(raw))
  {
    if IsDecimal(raw) || (|raw| > 1 && (raw[0] == '-' || raw[0] == '+') && IsDecimal(raw[1..])) {
      var n := ParseValue(raw).i;
      var digits := NatToString(if n < 0 then -n else n);
      assert forall i :: 0 <= i < |digits| ==> digits[i] != '=';
    } else if IsQuoted(raw) {
      assert Show(ParseValue(raw)) == raw[1..|raw| - 1];
      assert forall c :: c in raw[1..|raw| - 1] ==> c in raw;
    }
  }

  /** Every piece of a split avoids the characters the string avoids. */
  lemma {:induction false} SplitPiecesAvoid(s: string, sep: char, c: char)
    requires c !in s
    ensures forall i :: 0 <= i < |Split(s, sep)| ==> c !in Split(s, sep)[i]
  {
    if |s| > 0 {
      SplitPiecesAvoid(s[1..], sep, c);
    }
  }

  /** Joining pieces that avoid a character with another separator avoids it. */
  lemma {:induction false} JoinAvoids(sep: char, pieces: seq<string>, c: char)
    requires c != sep
    requires forall i :: 0 <= i < |pieces| ==> c !in pieces[i]
    ensures c !in Join(sep, pieces)
  {
    if |pieces| > 1 {
      JoinAvoids(sep, pieces[1..], c);
    }
  }

  /** When printing and re-parsing the value gives the same value, the
      recursion as written does what handing the parsed value down does. */
  lemma {:induction false} AsWrittenMatchesWhenReparseStable(config: Value, param: string)
    requires |Split(param, '=')| == 2
    requires ParseValue(Show(ParseValue(Split(param, '=')[1]))) == ParseValue(Split(param, '=')[1])
    ensures UpdateParamAsWritten(config, param) == UpdateParam(config, param)
    decreases config
  {
    var parts := Split(param, '=');
    var k := parts[0];
    var v := ParseValue(parts[1]);
    var kSplit := Split(k, '.');
    JoinSplit(k, '.');
    if |kSplit| > 1 {
      match Subscript(config, kSplit[0])
      case Failure(_) =>
      case Success(child) =>
        var rest := kSplit[1..];
        var restKey := Join('.', rest);
        SplitPiecesAvoid(k, '.', '=');
        JoinAvoids('.', rest, '=');
        ShowAvoidsEquals(parts[1]);
        SplitAroundOne(restKey, Show(v), '=');
        var curParam := restKey + "=" + Show(v);
        assert curParam == restKey + ['='] + Show(v);
        SplitJoin(rest, '.');
        AsWrittenMatchesWhenReparseStable(child, curParam);
    } else {
      assert kSplit == [k];
    }
  }

  /** For an undotted key the recursion is never entered, and the
      override as written stores the parsed value directly. */
  lemma AsWrittenMatchesOnTopLevelKeys(config: Value, param: string)
    requires |Split(param, '=')| == 2 && '.' !in Split(param, '=')[0]
    ensures UpdateParamAsWritten(config, param) == UpdateParam(config, param)
  {
    SplitNone(Split(param, '=')[0], '.');
  }

  lemma ParsedFive()
    ensures ParseValue("'5'") == LStr("5")
    ensures ParseValue("5") == LInt(5)
  {
    assert !IsDecimal("'5'");
    assert IsQuoted("'5'");
    assert IsDecimal("5");
    assert DigitsValue("5") == DigitsValue("") * 10 + 5;
  }

  /** The discrepancy: with config {"a": {"b": "x"}}, the override
      "a.b='5'" parses '5' as the string "5", prints it as 5 and parses
      that again as the integer 5, so the nested key receives an integer. */
  lemma QuotedNumberBecomesInt()
    ensures UpdateParamAsWritten(Dict(map["a" := Dict(map["b" := Leaf(LStr("x"))])]), "a.b='5'")
            == Success(Dict(map["a" := Dict(map["b" := Leaf(LInt(5))])]))
  {
    ParsedFive();
    SplitAroundOne("a.b", "'5'", '=');
    assert "a.b" + ['='] + "'5'" == "a.b='5'";
    SplitAroundOne("a", "b", '.');
    assert "a" + ['.'] + "b" == "a.b";
    assert Join('.', ["b"]) + "=" + Show(LStr("5")) == "b=5";
    SplitAroundOne("b", "5", '=');
    assert "b" + ['='] + "5" == "b=5";
    SplitNone("b", '.');
    var inner := Dict(map["b" := Leaf(LStr("x"))]);
    assert Split("b=5", '=') == ["b", "5"];
    assert map["b" := Leaf(LStr("x"))]["b" := Leaf(LInt(5))] == map["b" := Leaf(LInt(5))];
    assert SetLeaf(inner, "b", LInt(5)) == Success(Dict(map["b" := Leaf(LInt(5))]));
    assert UpdateParamAsWritten(inner, "b=5") == Success(Dict(map["b" := Leaf(LInt(5))]));
    var outer := Dict(map["a" := inner]);
    assert outer.entries["a" := Dict(map["b" := Leaf(LInt(5))])] == map["a" := Dict(map["b" := Leaf(LInt(5))])];
  }

  /** Handing the parsed value down stores the string "5", as the same
      override does for a top-level key. */
  lemma QuotedNumberStaysString()
    ensures UpdateParam(Dict(map["a" := Dict(map["b" := Leaf(LStr("x"))])]), "a.b='5'")
            == Success(Dict(map["a" := Dict(map["b" := Leaf(LStr("5"))])]))
    ensures UpdateParamAsWritten(Dict(map["b" := Leaf(LStr("x"))]), "b='5'")
            == Success(Dict(map["b" := Leaf(LStr("5"))]))
  {
    ParsedFive();
    SplitAroundOne("a.b", "'5'", '=');
    assert "a.b" + ['='] + "'5'" == "a.b='5'";
    SplitAroundOne("a", "b", '.');
    assert "a" + ['.'] + "b" == "a.b";
    var inner := Dict(map["b" := Leaf(LStr("x"))]);
    var outer := Dict(map["a" := inner]);
    assert map["b" := Leaf(LStr("x"))]["b" := Leaf(LStr("5"))] == map["b" := Leaf(LStr("5"))];
    assert SetPath(inner, ["b"], LStr("5")) == Success(Dict(map["b" := Leaf(LStr("5"))]));
    assert ["a", "b"][1..] == ["b"];
    assert outer.entries["a" := Dict(map["b" := Leaf(LStr("5"))])] == map["a" := Dict(map["b" := Leaf(LStr("5"))])];
    assert SetPath(outer, ["a", "b"], LStr("5")) == Success(Dict(map["a" := Dict(map["b" := Leaf(LStr("5"))])]));
    SplitAroundOne("b", "'5'", '=');
    assert "b" + ['='] + "'5'" == "b='5'";
    SplitNone("b", '.');
  }
}

=== FILE: length_regulator.dfy ===
/** `LengthRegulator`: every token frame is repeated for its rounded
    duration (`expand`), and the expanded sequences of a batch are
    right-padded with zero frames to a common length (`pad`). */
module LengthRegulator {
  import opened Wrappers

  type Frame = seq<real>

  datatype RegulatorError =
    | MissingDuration       // dur[i] indexed past the end of dur
    | NegativeExpansion     // frame.expand with a negative length
    | EmptyConcatenation    // torch.cat of an empty list
    | EmptyBatch            // max() of an empty list

  /** Python's `int()` on a float: truncation toward zero. */
  function Trunc(x: real): (r: int)
    ensures x >= 0.0 ==> r as real <= x < r as real + 1.0
    ensures x < 0.0 ==> r as real - 1.0 < x <= r as real
  {
    if x >= 0.0 then x.Floor else -((-x).Floor)
  }

  /** `int(dur[i] + 0.5)`: the number of copies of frame i. */
  function RoundedDuration(d: real): (n: int)
    ensures d >= -0.5 ==> n as real - 0.5 <= d < n as real + 0.5
    ensures n < 0 <==> d <= -1.5
    ensures -1.5 < d < -0.5 ==> n == 0
  {
    Trunc(d + 0.5)
  }

  function Repeat<T>(v: T, n: nat): (r: seq<T>)
    ensures |r| == n
    ensures forall k :: 0 <= k < n ==> r[k] == v
  {
    seq(n, _ => v)
  }

  /** Concatenation of blocks, `torch.cat(blocks, 0)` for a non-empty list. */
  function Flatten<T>(blocks: seq<seq<T>>): seq<T> {
    if |blocks| == 0 then [] else Flatten(blocks[..|blocks| - 1]) + blocks[|blocks| - 1]
  }

  /** Total length of the blocks. */
  function TotalLength<T>(blocks: seq<seq<T>>): nat {
    if |blocks| == 0 then 0 else TotalLength(blocks[..|blocks| - 1]) + |blocks[|blocks| - 1]|
  }

  /** The sum of the rounded durations of the first n tokens. */
  function FrameOffset(dur: seq<real>, n: nat): int
    requires n <= |dur|
  {
    if n == 0 then 0 else FrameOffset(dur, n - 1) + RoundedDuration(dur[n - 1])
  }

  predicate AllExpandable(dur: seq<real>, n: nat)
    requires n <= |dur|
  {
    forall i :: 0 <= i < n ==> dur[i] > -1.5
  }

  /** The loop of `expand`: one block per token, in token order. */
  function ExpandBlocks(x: seq<Frame>, dur: seq<real>): (r: Result<seq<seq<Frame>>, RegulatorError>)
    ensures r.Success? <==> |x| <= |dur| && AllExpandable(dur, |x|)
    ensures r.Success? ==> |r.value| == |x|
    ensures r.Success? ==> forall i :: 0 <= i < |x| ==> r.value[i] == Repeat(x[i], RoundedDuration(dur[i]))
  {
    if |x| == 0 then Success([])
    else
      var front :- ExpandBlocks(x[..|x| - 1], dur);
      var i := |x| - 1;
      if i >= |dur| then Failure(MissingDuration)
      else
        var n := RoundedDuration(dur[i]);
        if n < 0 then Failure(NegativeExpansion)
        else Success(front + [Repeat(x[i], n)])
  }

  /** `LengthRegulator.expand(x, dur)`. */
  function Expand(x: seq<Frame>, dur: seq<real>): (r: Result<seq<Frame>, RegulatorError>)
    ensures r.Success? <==> 0 < |x| <= |dur| && AllExpandable(dur, |x|)
    ensures |x| == 0 ==> r == Failure(EmptyConcatenation)
  {
    var blocks :- ExpandBlocks(x, dur);
    if |blocks| == 0 then Failure(EmptyConcatenation) else Success(Flatten(blocks))
  }

  lemma {:induction false} FlattenLength<T>(blocks: seq<seq<T>>)
    ensures |Flatten(blocks)| == TotalLength(blocks)
  {
    if |blocks| > 0 {
      FlattenLength(blocks[..|blocks| - 1]);
    }
  }

  /** Element j of block i sits at the total length of the blocks before it, plus j. */
  lemma {:induction false} FlattenIndex<T>(blocks: seq<seq<T>>, i: nat, j: nat)
    requires i < |blocks| && j < |blocks[i]|
    ensures TotalLength(blocks[..i]) + j < |Flatten(blocks)|
    ensures Flatten(blocks)[TotalLength(blocks[..i]) + j] == blocks[i][j]
  {
    var front := blocks[..|blocks| - 1];
    FlattenLength(front);
    FlattenLength(blocks);
    if i == |blocks| - 1 {
      assert blocks[..i] == front;
    } else {
      assert front[..i] == blocks[..i];
      FlattenIndex(front, i, j);
    }
  }

  /** The blocks of an expansion have the rounded durations as lengths. */
  lemma {:induction false} BlockOffsets(x: seq<Frame>, dur: seq<real>, blocks: seq<seq<Frame>>, n: nat)
    requires ExpandBlocks(x, dur) == Success(blocks)
    requires n <= |x|
    ensures TotalLength(blocks[..n]) == FrameOffset(dur, n)
  {
    if n > 0 {
      BlockOffsets(x, dur, blocks, n - 1);
      assert blocks[..n][..n - 1] == blocks[..n - 1];
    }
  }

  /** `expand` emits token i's frame exactly round(dur[i]) times, in token
      order: the output holds as many frames as the rounded durations add
      up to, and copy j of frame i sits right after the copies of all
      earlier tokens. */
  lemma ExpandRepeatsFrames(x: seq<Frame>, dur: seq<real>, i: nat, j: nat)
    requires Expand(x, dur).Success?
    requires i < |x| && j < RoundedDuration(dur[i])
    ensures |Expand(x, dur).value| == FrameOffset(dur, |x|)
    ensures 0 <= FrameOffset(dur, i) + j < |Expand(x, dur).value|
    ensures Expand(x, dur).value[FrameOffset(dur, i) + j] == x[i]
  {
    var blocks := ExpandBlocks(x, dur).value;
    FlattenLength(blocks);
    BlockOffsets(x, dur, blocks, |x|);
    assert blocks[..|x|] == blocks;
    BlockOffsets(x, dur, blocks, i);
    FlattenIndex(blocks, i, j);
  }

  /** Every frame has `width` channels, as in a [T, C] tensor. */
  predicate FramesOfWidth(frames: seq<Frame>, width: nat) {
    forall k :: 0 <= k < |frames| ==> |frames[k]| == width
  }

  lemma {:induction false} FlattenFramesOfWidth(blocks: seq<seq<Frame>>, width: nat)
    requires forall i :: 0 <= i < |blocks| ==> FramesOfWidth(blocks[i], width)
    ensures FramesOfWidth(Flatten(blocks), width)
  {
    if |blocks| > 0 {
      FlattenFramesOfWidth(blocks[..|blocks| - 1], width);
    }
  }

  /** Expansion only copies frames, so it keeps their channel count. */
  lemma ExpandKeepsWidth(x: seq<Frame>, dur: seq<real>, width: nat)
    requires Expand(x, dur).Success? && FramesOfWidth(x, width)
    ensures FramesOfWidth(Expand(x, dur).value, width)
  {
    FlattenFramesOfWidth(ExpandBlocks(x, dur).value, width);
  }

  function MaxLength(xs: seq<seq<Frame>>): (m: nat)
    requires |xs| > 0
    ensures forall i :: 0 <= i < |xs| ==> |xs[i]| <= m
    ensures exists i :: 0 <= i < |xs| && |xs[i]| == m
  {
    if |xs| == 1 then |xs[0]|
    else
      var rest := MaxLength(xs[1..]);
      assert forall i :: 1 <= i < |xs| ==> xs[i] == xs[1..][i - 1];
      if |xs[0]| >= rest then |xs[0]| else rest
  }

  function ZeroFrame(width: nat): Frame {
    Repeat(0.0, width)
  }

  /** `LengthRegulator.pad(x)`.  `width` is the channel count of the frames,
      which a torch tensor carries even when it has no rows. */
  function Pad(xs: seq<seq<Frame>>, width: nat): (r: Result<seq<seq<Frame>>, RegulatorError>)
    requires forall i :: 0 <= i < |xs| ==> FramesOfWidth(xs[i], width)
    ensures r.Failure? <==> |xs| == 0
    ensures r.Success? ==> |r.value| == |xs|
    ensures r.Success? ==> forall i :: 0 <= i < |xs| ==> FramesOfWidth(r.value[i], width)
    ensures r.Success? ==> forall i :: 0 <= i < |xs| ==>
              |r.value[i]| == MaxLength(xs) && r.value[i][..|xs[i]|] == xs[i]
    ensures r.Success? ==> forall i, k :: 0 <= i < |xs| && |xs[i]| <= k < |r.value[i]| ==>
              r.value[i][k] == ZeroFrame(width)
  {
    if |xs| == 0 then Failure(EmptyBatch)
    else
      var maxLen := MaxLength(xs);
      var padded := seq(|xs|, i requires 0 <= i < |xs| => xs[i] + Repeat(ZeroFrame(width), maxLen - |xs[i]|));
      forall i | 0 <= i < |xs|
        ensures FramesOfWidth(padded[i], width)
      {
        PaddedFramesOfWidth(xs[i], width, maxLen - |xs[i]|);
      }
      Success(padded)
  }

  lemma PaddedFramesOfWidth(frames: seq<Frame>, width: nat, n: nat)
    requires FramesOfWidth(frames, width)
    ensures FramesOfWidth(frames + Repeat(ZeroFrame(width), n), width)
  {
    assert |ZeroFrame(width)| == width;
  }

  /** The batch positions `zip(x, dur)` visits. */
  function ZipLength(x: seq<seq<Frame>>, dur: seq<seq<real>>): nat {
    if |x| <= |dur| then |x| else |dur|
  }

  /** Every zipped pair expands and there is at least one of them. */
  predicate ZipExpandable(x: seq<seq<Frame>>, dur: seq<seq<real>>) {
    && 0 < ZipLength(x, dur)
    && forall b :: 0 <= b < ZipLength(x, dur) ==>
         0 < |x[b]| <= |dur[b]| && AllExpandable(dur[b], |x[b]|)
  }

  /** `LengthRegulator.forward(x, dur)`: `zip` stops at the shorter batch.
      It raises exactly when a zipped item cannot be expanded or when
      nothing is zipped at all. */
  function Forward(x: seq<seq<Frame>>, dur: seq<seq<real>>, width: nat): (r: Result<seq<seq<Frame>>, RegulatorError>)
    requires forall b :: 0 <= b < |x| ==> FramesOfWidth(x[b], width)
    ensures r.Success? <==> ZipExpandable(x, dur)
    ensures r.Success? ==> forall b :: 0 <= b < |r.value| ==> FramesOfWidth(r.value[b], width)
  {
    var n := ZipLength(x, dur);
    ZippedExpansions(x, dur);
    var expanded :- ExpandAll(x[..n], dur[..n]);
    ExpansionsKeepWidth(x[..n], dur[..n], width);
    Pad(expanded, width)
  }

  lemma ExpansionsKeepWidth(x: seq<seq<Frame>>, dur: seq<seq<real>>, width: nat)
    requires |x| == |dur| && ExpandAll(x, dur).Success?
    requires forall b :: 0 <= b < |x| ==> FramesOfWidth(x[b], width)
    ensures forall b :: 0 <= b < |x| ==> FramesOfWidth(ExpandAll(x, dur).value[b], width)
  {
    forall b | 0 <= b < |x|
      ensures FramesOfWidth(ExpandAll(x, dur).value[b], width)
    {
      ExpandKeepsWidth(x[b], dur[b], width);
    }
  }

  /** The zipped prefix expands iff every zipped item is expandable. */
  lemma ZippedExpansions(x: seq<seq<Frame>>, dur: seq<seq<real>>)
    ensures var n := ZipLength(x, dur);
      && (ExpandAll(x[..n], dur[..n]).Success? <==>
            forall b :: 0 <= b < n ==> 0 < |x[b]| <= |dur[b]| && AllExpandable(dur[b], |x[b]|))
      && (ExpandAll(x[..n], dur[..n]).Success? ==> |ExpandAll(x[..n], dur[..n]).value| == n)
  {
    var n := ZipLength(x, dur);
    assert forall b :: 0 <= b < n ==> x[..n][b] == x[b] && dur[..n][b] == dur[b];
  }

  function ExpandAll(x: seq<seq<Frame>>, dur: seq<seq<real>>): (r: Result<seq<seq<Frame>>, RegulatorError>)
    requires |x| == |dur|
    ensures r.Success? <==> forall b :: 0 <= b < |x| ==> Expand(x[b], dur[b]).Success?
    ensures r.Success? ==> |r.value| == |x| && forall b :: 0 <= b < |x| ==> r.value[b] == Expand(x[b], dur[b]).value
  {
    if |x| == 0 then Success([])
    else
      var front :- ExpandAll(x[..|x| - 1], dur[..|x| - 1]);
      var last :- Expand(x[|x| - 1], dur[|x| - 1]);
      Success(front + [last])
  }

  /** Every output sequence of `forward` is the expansion of its batch item
      followed by zero frames, all padded to the longest expansion. */
  lemma ForwardPadsExpansions(x: seq<seq<Frame>>, dur: seq<seq<real>>, width: nat)
    requires forall b :: 0 <= b < |x| ==> FramesOfWidth(x[b], width)
    requires ZipExpandable(x, dur)
    ensures Forward(x, dur, width).Success?
    ensures var out := Forward(x, dur, width).value;
      && |out| == ZipLength(x, dur)
      && forall b :: 0 <= b < |out| ==>
           && Expand(x[b], dur[b]).Success?
           && var e := Expand(x[b], dur[b]).value;
              |e| <= |out[b]| && out[b][..|e|] == e
              && (forall k :: |e| <= k < |out[b]| ==> out[b][k] == ZeroFrame(width))
              && (forall c :: 0 <= c < |out| ==> |out[c]| == |out[b]|)
  {
    var n := ZipLength(x, dur);
    assert forall b :: 0 <= b < n ==> x[..n][b] == x[b] && dur[..n][b] == dur[b];
  }
}

=== FILE: masks.dfy ===
/** `get_mask_from_lengths`: a boolean padding mask from per-item lengths.
    Row i of the mask is true exactly on the first `lengths[i]` positions. */
module Masks {
  import opened Wrappers

  /** `torch.max` of an empty tensor raises. */
  datatype MaskError = EmptyLengths

  /** The largest element of a non-empty sequence. */
  function MaxOf(s: seq<int>): (m: int)
    requires |s| > 0
    ensures forall i :: 0 <= i < |s| ==> s[i] <= m
    ensures exists i :: 0 <= i < |s| && s[i] == m
  {
    if |s| == 1 then s[0]
    else
      var rest := MaxOf(s[1..]);
      assert forall i :: 1 <= i < |s| ==> s[i] == s[1..][i - 1];
      if s[0] >= rest then s[0] else rest
  }

  /** `list(range(n))` is empty when n is negative. */
  function RangeLen(n: int): nat {
    if n < 0 then 0 else n
  }

  /** Position j of a row whose valid length is `len`: `ids < lengths.unsqueeze(1)`. */
  function MaskRow(width: nat, len: int): seq<bool> {
    seq(width, j requires 0 <= j < width => j < len)
  }

  function GetMaskFromLengths(lengths: seq<int>): (r: Result<seq<seq<bool>>, MaskError>)
    ensures r.Failure? <==> |lengths| == 0
    ensures r.Success? ==> |r.value| == |lengths|
    ensures r.Success? ==> forall i :: 0 <= i < |lengths| ==> |r.value[i]| == RangeLen(MaxOf(lengths))
    ensures r.Success? ==>
      forall i, j :: 0 <= i < |lengths| && 0 <= j < |r.value[i]| ==> (r.value[i][j] <==> j < lengths[i])
  {
    if |lengths| == 0 then Failure(EmptyLengths)
    else
      var maxLen := RangeLen(MaxOf(lengths));
      Success(seq(|lengths|, i requires 0 <= i < |lengths| => MaskRow(maxLen, lengths[i])))
  }

  function CountTrue(row: seq<bool>): nat {
    if |row| == 0 then 0 else CountTrue(row[..|row| - 1]) + (if row[|row| - 1] then 1 else 0)
  }

  /** A mask row holds `len` trues when `len` fits the width. */
  lemma {:induction false} MaskRowCount(width: nat, len: int)
    requires len <= width
    ensures CountTrue(MaskRow(width, len)) == RangeLen(len)
  {
    if width == 0 {
    } else if len == width {
      MaskRowCount(width - 1, len - 1);
      assert MaskRow(width, len)[..width - 1] == MaskRow(width - 1, len - 1);
    } else {
      MaskRowCount(width - 1, len);
      assert MaskRow(width, len)[..width - 1] == MaskRow(width - 1, len);
    }
  }

  /** Row i of the mask is a block of `lengths[i]` trues followed only by
      falses: the true positions form a prefix, and there are exactly
      max(lengths[i], 0) of them. */
  lemma MaskRowsArePrefixes(lengths: seq<int>)
    requires |lengths| > 0
    ensures GetMaskFromLengths(lengths).Success?
    ensures forall i :: 0 <= i < |lengths| ==>
              CountTrue(GetMaskFromLengths(lengths).value[i]) == RangeLen(lengths[i])
    ensures forall i, j, k :: 0 <= i < |lengths| && 0 <= j < k < |GetMaskFromLengths(lengths).value[i]| ==>
              GetMaskFromLengths(lengths).value[i][k] ==> GetMaskFromLengths(lengths).value[i][j]
  {
    var w := RangeLen(MaxOf(lengths));
    var mask := GetMaskFromLengths(lengths).value;
    forall i | 0 <= i < |lengths|
      ensures CountTrue(mask[i]) == RangeLen(lengths[i])
    {
      MaskRowCount(w, lengths[i]);
    }
  }
}

=== FILE: real_math.dfy ===
/** The transcendental functions the coupling layers call.  Dafny's reals
    have no exp, log, tanh or sigmoid, so they are supplied as values and
    `Sound` states the facts about them that the layers rely on. */
module RealMath {

  datatype Math = Math(
    exp: real -> real,
    log: real -> real,
    tanh: real -> real,
    sigmoid: real -> real)

  /** exp is positive with exp(0) = 1 and inverts log on the positive reals;
      tanh ranges over (-1, 1) and sigmoid over (0, 1). */
  ghost predicate Sound(m: Math) {
    && m.exp(0.0) == 1.0
    && (forall x :: m.exp(x) > 0.0)
    && (forall x :: x > 0.0 ==> m.exp(m.log(x)) == x)
    && (forall x :: -1.0 < m.tanh(x) < 1.0)
    && (forall x :: 0.0 < m.sigmoid(x) < 1.0)
  }
}

=== FILE: spline.dfy ===
/** The spline coupling layers' rescaling and split structure
    (`SplineTransformationLayer`, `SplineTransformationLayerAR`).  The
    spline functions themselves live in a module that is not part of this
    model; they are parameters, applied element by element. */
module Spline {
  import opened Wrappers
  import opened Tensors

  /** The spline's input domain [left, right] and output domain [bottom, top]. */
  datatype Bounds = Bounds(left: real, right: real, bottom: real, top: real)

  /** Both domains have non-zero width, so rescaling divides by non-zero. */
  predicate ValidBounds(bd: Bounds) {
    bd.right != bd.left && bd.top != bd.bottom
  }

  /** For a positive d and p = y * d: y >= 0 exactly when p >= 0, and
      y <= 1 exactly when p <= d. */
  lemma SignOfProduct(y: real, d: real, p: real)
    requires d > 0.0 && p == y * d
    ensures y >= 0.0 <==> p >= 0.0
    ensures y <= 1.0 <==> p <= d
  {
    assert (1.0 - y) * d == d - y * d;
    if y < 0.0 { assert y * d < 0.0; }
    if y > 1.0 { assert (1.0 - y) * d < 0.0; }
    if y >= 0.0 { assert y * d >= 0.0; }
    if y <= 1.0 { assert (1.0 - y) * d >= 0.0; }
  }

  /** Rescaling from [lo, hi] to [0, 1]: y = (x - lo) / (hi - lo) lies in
      [0, 1] exactly when x lies in [lo, hi]. */
  lemma UnitNormalizing(lo: real, hi: real, x: real, y: real)
    requires lo < hi && y == (x - lo) / (hi - lo)
    ensures 0.0 <= y <= 1.0 <==> lo <= x <= hi
  {
    SignOfProduct(y, hi - lo, x - lo);
  }

  /** Rescaling from [0, 1] to [lo, hi]: y = x * (hi - lo) + lo lies in
      [lo, hi] exactly when x lies in [0, 1]. */
  lemma UnitDenormalizing(lo: real, hi: real, x: real, y: real)
    requires lo < hi && y == x * (hi - lo) + lo
    ensures 0.0 <= x <= 1.0 <==> lo <= y <= hi
  {
    SignOfProduct(x, hi - lo, y - lo);
  }

  /** `normalize(z, inverse)`: the forward pass maps [left, right] onto
      [0, 1]; the inverse pass maps [bottom, top] onto [0, 1]. */
  function Normalize(bd: Bounds, x: real, inverse: bool): (r: real)
    requires ValidBounds(bd)
    ensures !inverse ==> r * (bd.right - bd.left) + bd.left == x
    ensures inverse ==> r * (bd.top - bd.bottom) + bd.bottom == x
    ensures !inverse && bd.left < bd.right ==> (0.0 <= r <= 1.0 <==> bd.left <= x <= bd.right)
    ensures inverse && bd.bottom < bd.top ==> (0.0 <= r <= 1.0 <==> bd.bottom <= x <= bd.top)
  {
    var (lo, hi) := if inverse then (bd.bottom, bd.top) else (bd.left, bd.right);
    var y := (x - lo) / (hi - lo);
    if lo < hi then UnitNormalizing(lo, hi, x, y); y else y
  }

  /** `denormalize(z, inverse)`: the forward pass maps [0, 1] onto
      [bottom, top]; the inverse pass maps [0, 1] onto [left, right]. */
  function Denormalize(bd: Bounds, x: real, inverse: bool): (r: real)
    ensures inverse && bd.left < bd.right ==> (0.0 <= x <= 1.0 <==> bd.left <= r <= bd.right)
    ensures !inverse && bd.bottom < bd.top ==> (0.0 <= x <= 1.0 <==> bd.bottom <= r <= bd.top)
  {
    var (lo, hi) := if inverse then (bd.left, bd.right) else (bd.bottom, bd.top);
    var y := x * (hi - lo) + lo;
    if lo < hi then UnitDenormalizing(lo, hi, x, y); y else y
  }

  lemma RescaleBack(x: real, d: real, lo: real)
    requires d != 0.0
    ensures (x * d + lo - lo) / d == x
  {
  }

  /** The inverse pass's denormalize undoes the forward pass's normalize. */
  lemma DenormalizeUndoesNormalize(bd: Bounds, x: real)
    requires ValidBounds(bd)
    ensures Denormalize(bd, Normalize(bd, x, false), true) == x
  {
  }

  /** The inverse pass's normalize undoes the forward pass's denormalize. */
  lemma NormalizeUndoesDenormalize(bd: Bounds, x: real)
    requires ValidBounds(bd)
    ensures Normalize(bd, Denormalize(bd, x, false), true) == x
  {
    RescaleBack(x, bd.top - bd.bottom, bd.bottom);
  }

  /** The forward pass's denormalize undoes the inverse pass's normalize. */
  lemma DenormalizeUndoesInverseNormalize(bd: Bounds, x: real)
    requires ValidBounds(bd)
    ensures Denormalize(bd, Normalize(bd, x, true), false) == x
  {
  }

  /** The forward pass's normalize undoes the inverse pass's denormalize. */
  lemma NormalizeUndoesInverseDenormalize(bd: Bounds, x: real)
    requires ValidBounds(bd)
    ensures Normalize(bd, Denormalize(bd, x, true), false) == x
  {
    RescaleBack(x, bd.right - bd.left, bd.left);
  }

  /** The warning condition of `SplineTransformationLayerAR.forward`: some
      normalized element lies outside [0, 1]. */
  predicate ScaledBeyondUnit(bd: Bounds, z: Tensor, inverse: bool)
    requires ValidBounds(bd)
  {
    exists i, j, k :: 0 <= i < |z| && 0 <= j < |z[i]| && 0 <= k < |z[i][j]| &&
      !(0.0 <= Normalize(bd, z[i][j][k], inverse) <= 1.0)
  }

  /** For an ordered domain, the warning fires exactly when some input
      element lies outside the domain of the pass. */
  lemma WarningIffOutsideDomain(bd: Bounds, z: Tensor, inverse: bool)
    requires ValidBounds(bd) && bd.left < bd.right && bd.bottom < bd.top
    ensures ScaledBeyondUnit(bd, z, inverse) <==>
      exists i, j, k :: 0 <= i < |z| && 0 <= j < |z[i]| && 0 <= k < |z[i][j]| &&
        if inverse then !(bd.bottom <= z[i][j][k] <= bd.top) else !(bd.left <= z[i][j][k] <= bd.right)
  {
  }

  /** The bin count after construction: a quadratic spline with n bins
      needs 2n + 1 parameters per element, n bin widths followed by n + 1
      vertex heights. */
  function BinCount(nBins: nat, useQuadratic: bool): (r: nat)
    ensures useQuadratic ==> r / 2 == nBins && r - r / 2 == nBins + 1
    ensures !useQuadratic ==> r == nBins
  {
    if useQuadratic then 2 * nBins + 1 else nBins
  }

  /** The element-wise spline functions: `piecewise_linear_transform`,
      `piecewise_linear_inverse_transform` and
      `unbounded_piecewise_quadratic_transform(x, w, v, inverse)`. */
  datatype Splines = Splines(
    linear: (seq<real>, real) -> real,
    linearInverse: (seq<real>, real) -> real,
    quadratic: (seq<real>, seq<real>, real, bool) -> real)

  /** Each spline's inverse undoes it, in both orders. */
  ghost predicate SplinesInvert(sp: Splines) {
    && (forall q, x :: sp.linearInverse(q, sp.linear(q, x)) == x)
    && (forall q, x :: sp.linear(q, sp.linearInverse(q, x)) == x)
    && (forall w, v, x :: sp.quadratic(w, v, sp.quadratic(w, v, x, false), true) == x)
    && (forall w, v, x :: sp.quadratic(w, v, sp.quadratic(w, v, x, true), false) == x)
  }

  /** `SplineTransformationLayer`; `nBins` is the count after construction
      (see `BinCount`).  The predictor sees `torch.cat((z_0, context), 1)`. */
  datatype SplineLayer = SplineLayer(
    nMelChannels: nat,
    nBins: nat,
    bounds: Bounds,
    useQuadratic: bool,
    predictor: (Tensor, SeqLens) -> Tensor,
    splines: Splines)

  datatype SplineError = ShapeMismatch

  function Half(layer: SplineLayer): nat {
    layer.nMelChannels / 2
  }

  /** `SplineTransformationLayer.__init__`, as far as the layer's own
      bookkeeping goes: the bounds as given, and the bin count widened by
      `BinCount` when the quadratic spline is chosen.  The predictor is a
      parameter; it is meant to emit `Half * nBins` channels. */
  function NewSplineLayer(nMelChannels: nat, nBins: nat, left: real, right: real, bottom: real, top: real,
                          useQuadratic: bool, predictor: (Tensor, SeqLens) -> Tensor, splines: Splines)
    : (r: SplineLayer)
    ensures r.nBins == BinCount(nBins, useQuadratic)
    ensures r.bounds == Bounds(left, right, bottom, top)
    ensures r.useQuadratic == useQuadratic && Half(r) == nMelChannels / 2
  {
    SplineLayer(nMelChannels, BinCount(nBins, useQuadratic), Bounds(left, right, bottom, top),
                useQuadratic, predictor, splines)
  }

  /** The predictor's output reshapes to one block of `nBins` parameters
      per element of z_1 (`q_tilde`), and z_1 has `h` channels. */
  predicate ParamsFit(z1: Tensor, params: Tensor, h: nat, nBins: nat) {
    && |params| == |z1|
    && forall b :: 0 <= b < |z1| ==>
         && |z1[b]| == h
         && |params[b]| == h * nBins
         && forall c, p :: 0 <= c < h && 0 <= p < h * nBins ==> |params[b][p]| == |z1[b][c]|
  }

  lemma BinIndexInRange(c: nat, k: nat, h: nat, n: nat)
    requires c < h && k < n
    ensures c * n + k < h * n
  {
    assert (c + 1) * n <= h * n;
  }

  /** `q_tilde[b * t_s + t, c]`: the bin parameters of channel c at time t,
      which the permute/reshape takes from channels c*nBins .. c*nBins+nBins-1. */
  function Bins(params: Tensor, h: nat, nBins: nat, b: nat, c: nat, t: nat): (q: seq<real>)
    requires b < |params| && |params[b]| == h * nBins && c < h
    requires forall p :: 0 <= p < h * nBins ==> t < |params[b][p]|
    ensures |q| == nBins
  {
    seq(nBins, k requires 0 <= k < nBins =>
      BinIndexInRange(c, k, h, nBins);
      params[b][c * nBins + k][t])
  }

  /** The spline applied to one normalized element: the quadratic spline
      gets its widths w = q[:n_bins // 2] and heights v = q[n_bins // 2:]
      and the direction flag; the linear one picks its inverse explicitly. */
  function ApplySpline(layer: SplineLayer, q: seq<real>, x: real, inverse: bool): real {
    if layer.useQuadratic then
      layer.splines.quadratic(q[..|q| / 2], q[|q| / 2..], x, inverse)
    else if inverse then layer.splines.linearInverse(q, x)
    else layer.splines.linear(q, x)
  }

  /** One element of z_1: normalize, spline, denormalize. */
  function SplineStep(layer: SplineLayer, q: seq<real>, x: real, inverse: bool): real
    requires ValidBounds(layer.bounds)
  {
    Denormalize(layer.bounds, ApplySpline(layer, q, Normalize(layer.bounds, x, inverse), inverse), inverse)
  }

  /** With inverting splines, the inverse step undoes the forward step and
      the forward step undoes the inverse step. */
  lemma SplineStepInverts(layer: SplineLayer, q: seq<real>, x: real)
    requires ValidBounds(layer.bounds) && SplinesInvert(layer.splines)
    ensures SplineStep(layer, q, SplineStep(layer, q, x, false), true) == x
    ensures SplineStep(layer, q, SplineStep(layer, q, x, true), false) == x
  {
    var bd := layer.bounds;
    var y := ApplySpline(layer, q, Normalize(bd, x, false), false);
    NormalizeUndoesDenormalize(bd, y);
    DenormalizeUndoesNormalize(bd, x);
    var y' := ApplySpline(layer, q, Normalize(bd, x, true), true);
    NormalizeUndoesInverseDenormalize(bd, y');
    DenormalizeUndoesInverseNormalize(bd, x);
  }

  /** z_1 after the spline pass: `SplineStep` at every element, with the
      element's own bin parameters. */
  function SplineOutput(layer: SplineLayer, params: Tensor, z1: Tensor, inverse: bool): (r: Tensor)
    requires ValidBounds(layer.bounds)
    requires ParamsFit(z1, params, Half(layer), layer.nBins)
    ensures SameShape(r, z1)
    ensures forall b, c, t :: 0 <= b < |z1| && 0 <= c < |z1[b]| && 0 <= t < |z1[b][c]| ==>
              r[b][c][t] == SplineStep(layer, Bins(params, Half(layer), layer.nBins, b, c, t), z1[b][c][t], inverse)
  {
    var h := Half(layer);
    seq(|z1|, b requires 0 <= b < |z1| =>
      seq(|z1[b]|, c requires 0 <= c < |z1[b]| =>
        seq(|z1[b][c]|, t requires 0 <= t < |z1[b][c]| =>
          SplineStep(layer, Bins(params, h, layer.nBins, b, c, t), z1[b][c][t], inverse))))
  }

  /** Whether the predictor's output fits z_1 depends only on z_1's shape. */
  lemma ParamsFitSameShape(z1: Tensor, y1: Tensor, params: Tensor, h: nat, nBins: nat)
    requires SameShape(z1, y1)
    requires ParamsFit(z1, params, h, nBins)
    ensures ParamsFit(y1, params, h, nBins)
  {
  }

  /** With inverting splines, the inverse spline pass undoes the forward
      one element by element. */
  lemma SplineOutputInverts(layer: SplineLayer, params: Tensor, z1: Tensor, inverse: bool)
    requires ValidBounds(layer.bounds) && SplinesInvert(layer.splines)
    requires ParamsFit(z1, params, Half(layer), layer.nBins)
    ensures ParamsFit(SplineOutput(layer, params, z1, inverse), params, Half(layer), layer.nBins)
    ensures SplineOutput(layer, params, SplineOutput(layer, params, z1, inverse), !inverse) == z1
  {
    var h := Half(layer);
    var y1 := SplineOutput(layer, params, z1, inverse);
    ParamsFitSameShape(z1, y1, params, h, layer.nBins);
    var back := SplineOutput(layer, params, y1, !inverse);
    forall b, c, t | 0 <= b < |z1| && 0 <= c < |z1[b]| && 0 <= t < |z1[b][c]|
      ensures back[b][c][t] == z1[b][c][t]
    {
      SplineStepInverts(layer, Bins(params, h, layer.nBins, b, c, t), z1[b][c][t]);
    }
    Extensionality(back, z1);
  }

  /** The predictor's output for z: it sees `torch.cat((z_0, context), 1)`. */
  function PredictedParams(layer: SplineLayer, z: Tensor, context: Tensor, seqLens: SeqLens): Tensor
    requires HasChannels(z, Half(layer)) && |context| == |z|
  {
    layer.predictor(Cat(Channels(z, 0, Half(layer)), context), seqLens)
  }

  /** z has the channels to split, the context matches its batch and time
      sizes (`torch.cat((z_0, context), 1)` demands it), and the
      predicted parameters reshape to one bin block per element of z_1. */
  predicate Fits(layer: SplineLayer, z: Tensor, context: Tensor, seqLens: SeqLens) {
    && HasChannels(z, Half(layer))
    && |context| == |z|
    && TimeAligned(z, context)
    && ParamsFit(ChannelsFrom(z, Half(layer)), PredictedParams(layer, z, context, seqLens), Half(layer), layer.nBins)
  }

  /** `SplineTransformationLayer.forward(z, context, inverse, seq_lens)`
      without the log-determinant: z_0 is passed through and conditions the
      predictor, z_1 goes element by element through `SplineStep` with the
      bins predicted for it. */
  function Transform(layer: SplineLayer, z: Tensor, context: Tensor, seqLens: SeqLens, inverse: bool)
    : (r: Result<Tensor, SplineError>)
    requires ValidBounds(layer.bounds)
    ensures r.Success? <==> Fits(layer, z, context, seqLens)
    ensures r.Success? ==> CatSplitsAt(r.value, Channels(z, 0, Half(layer)), Half(layer))
    ensures r.Success? ==> |r.value| == |z| && SameShape(ChannelsFrom(r.value, Half(layer)), ChannelsFrom(z, Half(layer)))
    ensures r.Success? ==>
              ChannelsFrom(r.value, Half(layer))
                == SplineOutput(layer, PredictedParams(layer, z, context, seqLens), ChannelsFrom(z, Half(layer)), inverse)
  {
    var h := Half(layer);
    if !Fits(layer, z, context, seqLens) then Failure(ShapeMismatch)
    else
      var z0 := Channels(z, 0, h);
      var z1 := ChannelsFrom(z, h);
      var out1 := SplineOutput(layer, PredictedParams(layer, z, context, seqLens), z1, inverse);
      CatSplit(z0, out1, h);
      Success(Cat(z0, out1))
  }

  /** With inverting splines and the same context, a pass in one direction
      followed by a pass in the other gives back the latent: z_0 comes
      through untouched, so the predictor produces the same bins both
      times. */
  lemma TransformRoundTrip(layer: SplineLayer, z: Tensor, context: Tensor, seqLens: SeqLens, inverse: bool)
    requires ValidBounds(layer.bounds) && SplinesInvert(layer.splines)
    requires Transform(layer, z, context, seqLens, inverse).Success?
    ensures Transform(layer, Transform(layer, z, context, seqLens, inverse).value, context, seqLens, !inverse) == Success(z)
  {
    var h := Half(layer);
    var z0 := Channels(z, 0, h);
    var z1 := ChannelsFrom(z, h);
    var params := PredictedParams(layer, z, context, seqLens);
    var out1 := SplineOutput(layer, params, z1, inverse);
    CatSplit(z0, out1, h);
    CatKeepsShape(z, h, out1, context);
    var out := Cat(z0, out1);
    SplineOutputInverts(layer, params, z1, inverse);
    SplitCat(z, h);
  }
}

=== FILE: strings.dfy ===
/** Python's `str.split(sep)` and `sep.join(pieces)` for a one-character
    separator, as `update_params` uses them on "key=value" and "a.b.c". */
module Strings {

  /** `s.split(sep)`: the maximal runs between separators, always at least one. */
  function Split(s: string, sep: char): (r: seq<string>)
    ensures |r| >= 1
    ensures forall i :: 0 <= i < |r| ==> sep !in r[i]
  {
    if |s| == 0 then [""]
    else
      var rest := Split(s[1..], sep);
      if s[0] == sep then [""] + rest
      else [[s[0]] + rest[0]] + rest[1..]
  }

  /** `sep.join(pieces)`. */
  function Join(sep: char, pieces: seq<string>): string {
    if |pieces| == 0 then ""
    else if |pieces| == 1 then pieces[0]
    else pieces[0] + [sep] + Join(sep, pieces[1..])
  }

  function Count(s: string, c: char): nat {
    if |s| == 0 then 0 else (if s[0] == c then 1 else 0) + Count(s[1..], c)
  }

  /** Joining the pieces of a split gives the string back, and there is one
      more piece than there are separators. */
  lemma {:induction false} JoinSplit(s: string, sep: char)
    ensures Join(sep, Split(s, sep)) == s
    ensures |Split(s, sep)| == Count(s, sep) + 1
  {
    if |s| > 0 {
      JoinSplit(s[1..], sep);
      var rest := Split(s[1..], sep);
      if s[0] == sep {
        assert Split(s, sep) == [""] + rest;
        assert s == [sep] + s[1..];
      } else {
        var r := Split(s, sep);
        assert r[1..] == rest[1..];
        if |rest| == 1 {
          assert Join(sep, r) == [s[0]] + rest[0];
        } else {
          assert Join(sep, rest) == rest[0] + [sep] + Join(sep, rest[1..]);
        }
        assert s == [s[0]] + s[1..];
      }
    }
  }

  /** Splitting a string with one separator between two separator-free
      parts yields exactly those parts. */
  lemma {:induction false} SplitAroundOne(a: string, b: string, sep: char)
    requires sep !in a && sep !in b
    ensures Split(a + [sep] + b, sep) == [a, b]
  {
    if |a| == 0 {
      assert a + [sep] + b == [sep] + b;
      SplitNone(b, sep);
    } else {
      SplitAroundOne(a[1..], b, sep);
      assert (a + [sep] + b)[1..] == a[1..] + [sep] + b;
      assert a == [a[0]] + a[1..];
    }
  }

  /** A string without the separator splits into itself alone. */
  lemma {:induction false} SplitNone(s: string, sep: char)
    requires sep !in s
    ensures Split(s, sep) == [s]
  {
    if |s| > 0 {
      SplitNone(s[1..], sep);
      assert s == [s[0]] + s[1..];
    }
  }

  /** Splitting a join of separator-free pieces gives the pieces back. */
  lemma {:induction false} SplitJoin(pieces: seq<string>, sep: char)
    requires |pieces| >= 1
    requires forall i :: 0 <= i < |pieces| ==> sep !in pieces[i]
    ensures Split(Join(sep, pieces), sep) == pieces
  {
    if |pieces| == 1 {
      SplitNone(pieces[0], sep);
    } else {
      SplitJoin(pieces[1..], sep);
      SplitPrepend(pieces[0], Join(sep, pieces[1..]), sep);
    }
  }

  /** Prepending a separator-free piece and a separator adds that piece in front. */
  lemma {:induction false} SplitPrepend(a: string, rest: string, sep: char)
    requires sep !in a
    ensures Split(a + [sep] + rest, sep) == [a] + Split(rest, sep)
  {
    if |a| == 0 {
      assert a + [sep] + rest == [sep] + rest;
      assert ([sep] + rest)[1..] == rest;
    } else {
      SplitPrepend(a[1..], rest, sep);
      assert (a + [sep] + rest)[1..] == a[1..] + [sep] + rest;
      assert a == [a[0]] + a[1..];
    }
  }

  /** Python's `k in s` for strings: `k` occurs in `s` as a contiguous run. */
  predicate IsSubstring(k: string, s: string) {
    k <= s || (|s| > 0 && IsSubstring(k, s[1..]))
  }
}

=== FILE: tensors.dfy ===
/** Dense real tensors as nested sequences.  A `Tensor` is laid out as the
    flow layers use it: batch x channels x time.  Only the bookkeeping the
    coupling layers perform is defined here: channel slicing, channel
    concatenation and element-wise maps. */
module Tensors {
  import opened Wrappers

  type Row = seq<real>
  type Mat = seq<Row>
  type Tensor = seq<Mat>

  predicate SameShape(a: Tensor, b: Tensor) {
    && |a| == |b|
    && (forall i :: 0 <= i < |a| ==> |a[i]| == |b[i]|)
    && (forall i, j :: 0 <= i < |a| && 0 <= j < |a[i]| ==> |a[i][j]| == |b[i][j]|)
  }

  /** Every batch item has at least `c` channels. */
  predicate HasChannels(t: Tensor, c: nat) {
    forall i :: 0 <= i < |t| ==> c <= |t[i]|
  }

  /** `out` begins with the channels `z0` (h of them per item). */
  predicate CatSplitsAt(out: Tensor, z0: Tensor, h: nat) {
    HasChannels(out, h) && Channels(out, 0, h) == z0
  }

  /** `torch.cat((a, b), 1)` needs every size but the channel count to
      agree: the same batch, and every channel of `b` as long in time as
      every channel of `a`. */
  predicate TimeAligned(a: Tensor, b: Tensor) {
    && |a| == |b|
    && forall i, c, d :: 0 <= i < |a| && 0 <= c < |a[i]| && 0 <= d < |b[i]| ==> |b[i][d]| == |a[i][c]|
  }

  /** The optional per-item lengths handed to a parameter predictor. */
  type SeqLens = Option<seq<int>>

  /** `t[:, lo:hi]`: the channels lo .. hi-1 of every batch item. */
  function Channels(t: Tensor, lo: nat, hi: nat): (r: Tensor)
    requires lo <= hi
    requires HasChannels(t, hi)
    ensures |r| == |t|
    ensures forall i :: 0 <= i < |r| ==> r[i] == t[i][lo..hi]
  {
    seq(|t|, i requires 0 <= i < |t| => t[i][lo..hi])
  }

  /** `t[:, lo:]`: every channel from `lo` on. */
  function ChannelsFrom(t: Tensor, lo: nat): (r: Tensor)
    requires HasChannels(t, lo)
    ensures |r| == |t|
    ensures forall i :: 0 <= i < |r| ==> r[i] == t[i][lo..]
  {
    seq(|t|, i requires 0 <= i < |t| => t[i][lo..])
  }

  /** `torch.cat((a, b), dim=1)`: channel-wise concatenation. */
  function Cat(a: Tensor, b: Tensor): (r: Tensor)
    requires |a| == |b|
    ensures |r| == |a|
    ensures forall i :: 0 <= i < |r| ==> r[i] == a[i] + b[i]
  {
    seq(|a|, i requires 0 <= i < |a| => a[i] + b[i])
  }

  /** Element-wise application of `f`. */
  function Map(a: Tensor, f: real -> real): (r: Tensor)
    ensures SameShape(r, a)
    ensures forall i, j, k :: 0 <= i < |a| && 0 <= j < |a[i]| && 0 <= k < |a[i][j]| ==>
              r[i][j][k] == f(a[i][j][k])
  {
    seq(|a|, i requires 0 <= i < |a| =>
      seq(|a[i]|, j requires 0 <= j < |a[i]| =>
        seq(|a[i][j]|, k requires 0 <= k < |a[i][j]| => f(a[i][j][k]))))
  }

  /** Element-wise combination of three tensors of one shape. */
  function Map3(a: Tensor, b: Tensor, c: Tensor, f: (real, real, real) -> real): (r: Tensor)
    requires SameShape(a, b) && SameShape(a, c)
    ensures SameShape(r, a)
    ensures forall i, j, k :: 0 <= i < |a| && 0 <= j < |a[i]| && 0 <= k < |a[i][j]| ==>
              r[i][j][k] == f(a[i][j][k], b[i][j][k], c[i][j][k])
  {
    seq(|a|, i requires 0 <= i < |a| =>
      seq(|a[i]|, j requires 0 <= j < |a[i]| =>
        seq(|a[i][j]|, k requires 0 <= k < |a[i][j]| => f(a[i][j][k], b[i][j][k], c[i][j][k]))))
  }

  /** Two tensors of one shape that agree at every element are equal. */
  lemma Extensionality(a: Tensor, b: Tensor)
    requires SameShape(a, b)
    requires forall i, j, k :: 0 <= i < |a| && 0 <= j < |a[i]| && 0 <= k < |a[i][j]| ==>
               a[i][j][k] == b[i][j][k]
    ensures a == b
  {
    forall i | 0 <= i < |a|
      ensures a[i] == b[i]
    {
      forall j | 0 <= j < |a[i]|
        ensures a[i][j] == b[i][j]
      {
      }
    }
  }

  /** Splitting a tensor at channel `h` and concatenating the halves gives it back. */
  lemma SplitCat(t: Tensor, h: nat)
    requires HasChannels(t, h)
    ensures Cat(Channels(t, 0, h), ChannelsFrom(t, h)) == t
  {
    var r := Cat(Channels(t, 0, h), ChannelsFrom(t, h));
    forall i | 0 <= i < |t|
      ensures r[i] == t[i]
    {
      assert t[i][0..h] + t[i][h..] == t[i];
    }
  }

  /** Slicing a concatenation at the seam recovers both parts. */
  lemma CatSplit(a: Tensor, b: Tensor, h: nat)
    requires |a| == |b|
    requires forall i :: 0 <= i < |a| ==> |a[i]| == h
    ensures HasChannels(Cat(a, b), h)
    ensures Channels(Cat(a, b), 0, h) == a
    ensures ChannelsFrom(Cat(a, b), h) == b
  {
    var r := Cat(a, b);
    assert forall i :: 0 <= i < |a| ==> r[i][0..h] == a[i] && r[i][h..] == b[i];
  }

  /** Replacing the channels after `h` by a tensor of their shape keeps the
      shape of the whole, and so its time alignment with a context. */
  lemma CatKeepsShape(t: Tensor, h: nat, b: Tensor, context: Tensor)
    requires HasChannels(t, h)
    requires SameShape(b, ChannelsFrom(t, h))
    requires TimeAligned(t, context)
    ensures SameShape(Cat(Channels(t, 0, h), b), t)
    ensures TimeAligned(Cat(Channels(t, 0, h), b), context)
  {
    var r := Cat(Channels(t, 0, h), b);
    forall i, j | 0 <= i < |r| && 0 <= j < |r[i]|
      ensures |r[i][j]| == |t[i][j]|
    {
      if j >= h {
        assert r[i][j] == b[i][j - h];
        assert t[i][j] == ChannelsFrom(t, h)[i][j - h];
      }
    }
  }
}

=== FILE: unsort.dfy ===
/** The index bookkeeping of `ConvLSTMLinear.run_unsorted_inputs`: the batch
    is sorted by descending length, run through a recurrent function, and
    put back in its original order through a hand-built inverse permutation. */
module Unsort {

  predicate InRange(ids: seq<nat>, n: nat) {
    forall i :: 0 <= i < |ids| ==> ids[i] < n
  }

  predicate Distinct(ids: seq<nat>) {
    forall i, j :: 0 <= i < j < |ids| ==> ids[i] != ids[j]
  }

  /** `ids` lists every index below |ids| exactly once. */
  predicate IsPermutation(ids: seq<nat>) {
    && InRange(ids, |ids|)
    && Distinct(ids)
    && (forall v :: 0 <= v < |ids| ==> v in ids)
  }

  /** The lengths selected by `ids` never increase. */
  predicate SortedDescending(lens: seq<int>, ids: seq<nat>)
    requires InRange(ids, |lens|)
  {
    forall i, j :: 0 <= i < j < |ids| ==> lens[ids[i]] >= lens[ids[j]]
  }

  /** Inserts index x after every index whose length is at least lens[x]. */
  function InsertDescending(lens: seq<int>, x: nat, s: seq<nat>): (r: seq<nat>)
    requires x < |lens| && InRange(s, |lens|)
    requires SortedDescending(lens, s)
    ensures |r| == |s| + 1
    ensures InRange(r, |lens|)
    ensures SortedDescending(lens, r)
    ensures forall v :: v in r <==> v == x || v in s
  {
    if |s| == 0 then [x]
    else if lens[s[0]] < lens[x] then [x] + s
    else
      var tail := InsertDescending(lens, x, s[1..]);
      assert forall v :: v in s[1..] ==> lens[s[0]] >= lens[v] by {
        forall v | v in s[1..] ensures lens[s[0]] >= lens[v] {
          var k :| 0 <= k < |s[1..]| && s[1..][k] == v;
          assert s[k + 1] == v;
        }
      }
      assert forall k :: 0 <= k < |tail| ==> lens[s[0]] >= lens[tail[k]] by {
        forall k | 0 <= k < |tail| ensures lens[s[0]] >= lens[tail[k]] {
          assert tail[k] in tail;
        }
      }
      [s[0]] + tail
  }

  /** Inserting an index not yet present keeps the indices distinct. */
  lemma {:induction false} InsertKeepsDistinct(lens: seq<int>, x: nat, s: seq<nat>)
    requires x < |lens| && InRange(s, |lens|)
    requires SortedDescending(lens, s)
    requires Distinct(s) && x !in s
    ensures Distinct(InsertDescending(lens, x, s))
  {
    if |s| > 0 && lens[s[0]] >= lens[x] {
      var tail := s[1..];
      assert forall k :: 0 <= k < |tail| ==> tail[k] == s[k + 1];
      InsertKeepsDistinct(lens, x, tail);
      assert s[0] !in tail;
      var r := InsertDescending(lens, x, s);
      assert r == [s[0]] + InsertDescending(lens, x, tail);
      assert forall k :: 1 <= k < |r| ==> r[k] in InsertDescending(lens, x, tail);
    }
  }

  /** Insertion-sorts the indices 0 .. n-1 by descending length. */
  function SortFirst(lens: seq<int>, n: nat): (r: seq<nat>)
    requires n <= |lens|
    ensures |r| == n
    ensures InRange(r, |lens|)
    ensures SortedDescending(lens, r)
    ensures Distinct(r)
    ensures forall v: nat :: v in r <==> v < n
  {
    if n == 0 then []
    else
      var prefix := SortFirst(lens, n - 1);
      InsertKeepsDistinct(lens, n - 1, prefix);
      InsertDescending(lens, n - 1, prefix)
  }

  /** `torch.sort(lens, descending=True)`: the sort indices.  torch does not
      fix the order of equal lengths; this model keeps them in input order,
      which is one of the orders torch may return. */
  function SortDescending(lens: seq<int>): (ids: seq<nat>)
    ensures |ids| == |lens|
    ensures IsPermutation(ids)
    ensures SortedDescending(lens, ids)
  {
    SortFirst(lens, |lens|)
  }

  /** `unsort_ids[ids_sorted[i]] = i` for every i, starting from zeros. */
  method UnsortIds(ids: seq<nat>) returns (unsort: seq<nat>)
    requires IsPermutation(ids)
    ensures |unsort| == |ids|
    ensures IsPermutation(unsort)
    ensures forall i :: 0 <= i < |ids| ==> unsort[ids[i]] == i
    ensures forall j :: 0 <= j < |ids| ==> ids[unsort[j]] == j
  {
    unsort := seq(|ids|, _ => 0);
    var i := 0;
    while i < |ids|
      invariant 0 <= i <= |ids|
      invariant |unsort| == |ids|
      invariant forall k :: 0 <= k < i ==> unsort[ids[k]] == k
      invariant forall j :: 0 <= j < |ids| ==> unsort[j] < |ids|
    {
      unsort := unsort[ids[i] := i];
      i := i + 1;
    }
    forall j | 0 <= j < |ids|
      ensures ids[unsort[j]] == j
    {
      assert j in ids;
      var k :| 0 <= k < |ids| && ids[k] == j;
    }
    forall v | 0 <= v < |ids|
      ensures v in unsort
    {
      assert unsort[ids[v]] == v;
    }
  }

  /** `batch[ids]`: the items of `batch` in the order `ids` lists them. */
  function Gather<T>(batch: seq<T>, ids: seq<nat>): (r: seq<T>)
    requires InRange(ids, |batch|)
    ensures |r| == |ids|
    ensures forall i :: 0 <= i < |ids| ==> r[i] == batch[ids[i]]
  {
    seq(|ids|, i requires 0 <= i < |ids| => batch[ids[i]])
  }

  /** Indexing the sorted batch by the unsort indices restores the batch. */
  lemma GatherUnsortRestores<T>(batch: seq<T>, ids: seq<nat>, unsort: seq<nat>)
    requires |ids| == |batch| && |unsort| == |batch|
    requires IsPermutation(ids) && IsPermutation(unsort)
    requires forall j :: 0 <= j < |ids| ==> ids[unsort[j]] == j
    ensures Gather(Gather(batch, ids), unsort) == batch
  {
  }

  /** `run_unsorted_inputs(fn, context, lens)`.  `fn` stands for the packed
      recurrent network, which treats every sequence on its own: it maps one
      batch item and its length to one output item. */
  method RunUnsortedInputs<T, U>(fn: (T, int) -> U, context: seq<T>, lens: seq<int>)
    returns (out: seq<U>)
    requires |context| == |lens|
    ensures |out| == |context|
    ensures forall j :: 0 <= j < |context| ==> out[j] == fn(context[j], lens[j])
  {
    var idsSorted := SortDescending(lens);
    var unsortIds := UnsortIds(idsSorted);
    var lensSorted := Gather(lens, idsSorted);
    var sortedContext := Gather(context, idsSorted);
    var processed := seq(|sortedContext|, i requires 0 <= i < |sortedContext| =>
      fn(sortedContext[i], lensSorted[i]));
    out := Gather(processed, unsortIds);
  }
}

=== FILE: wrappers.dfy ===
/** Failure-compatible result types shared by every module of the model.
    Python exceptions raised by the modelled code become `Failure` values. */
module Wrappers {

  datatype Option<+T> = None | Some(value: T)

  datatype Result<+R, +E> = Success(value: R) | Failure(error: E) {

    predicate IsFailure() {
      Failure?
    }

    function PropagateFailure<U>(): Result<U, E>
      requires Failure?
    {
      Failure(error)
    }

    function Extract(): R
      requires Success?
    {
      value
    }
  }
}
